=== FILE: README.md ===
# EO-Random-Photo decision logic in Dafny

A model of the request-time logic of a referer-gated random-image service
for an edge platform, with its properties proved:

- **Access control** (`AccessControl`, functions/_middleware.ts): admin
  paths bypass everything; a public image is served unconditionally; DDoS
  mode refuses requests without a referer; public access, a referer naming
  the request's own host, or a whitelisted referer domain (matched on a dot
  boundary) allow; everything else is refused with 403.
- **Random image** (`RandomImage`, functions/random.ts; `ApiRandom`,
  functions/api/random.ts): orientation from `?type` or the user agent, a
  404 for an empty list, the image picked by `floor(r * n)`, redirect or
  proxy from `?redirect` and `Accept`, and cache headers from DDoS mode.
- **Configuration** (`ConfigStore`, functions/utils/config.ts): parsing of
  the environment variables, overlay of a stored object on the defaults,
  the one-slot process cache as a two-state value, and the `??` merge on
  save.
- **Admin gate** (`Admin`, functions/api/admin.ts): bearer extraction, the
  two-password check and method dispatch.
- **Debug report** (`DebugEndpoint`, functions/api/debug.ts), proved to
  agree with the middleware.
- **Manifest generation** (`ManifestBuilder`, scripts/generate-manifest.js):
  the extension filter and the path prefixes.

The JavaScript runtime functions the handlers lean on (`indexOf`,
`replace`, `split`, `parseInt`, number printing, the `/i` flag) are modelled
in `Strings`. Everything is a pure function of its inputs. The URL parser,
`Math.random`, the origin resolution of the picked path and the result of
fetching it are parameters. The store's read result and write success are
parameters too. The module-level config cache is an explicit `Cache` value
passed in and returned by every handler that loads the config. That
includes `RandomImage.Serve`, which wraps the image handler
`RandomImage.Handle`; the inner handler takes the loaded config.

The model follows the code as written, which in particular:
- uses one 403 message for every refusal except the missing referer, with
  no separate reason for an unparseable referer;
- forwards only `Content-Type` and `ETag` in proxy mode and sets no `Vary`
  header;
- has no internal-request bypass and no `/images/*` pass-through in the
  middleware.

## Model

| member | source | states |
|---|---|---|
| Strings.IndexOf | functions/api/admin.ts:11 | The position found is an occurrence and no earlier position is one; no result means no occurrence anywhere. This is the "first occurrence" that `replace` with a string pattern acts on. |
| Strings.SplitCount | functions/utils/config.ts:60 | A raw `split(',')` yields exactly one more piece than there are commas, empty pieces included. |
| Strings.JoinSplit | functions/utils/config.ts:60 | No trimming or dropping: joining the pieces with `,` gives back the variable exactly. |
| Strings.SplitJoin | functions/utils/config.ts:64 | Conversely, comma-free entries joined with `,` split back into the same list. |
| Strings.SplitLast | functions/_middleware.ts:15 | `split('/').pop()` is the slash-free suffix after the last `/` (or the whole path when it has no `/`). |
| Strings.ParseIntOfIntToString | functions/utils/config.ts:63 | `parseInt(s, 10)` reads back exactly the integer that template-literal printing wrote. |
| Strings.ParseInt | functions/utils/config.ts:63 | `parseInt(s, 10)` is NaN iff no digit follows the leading white space and the optional sign. |
| Strings.ParseIntReadsNumber | functions/utils/config.ts:63 | For any input made of white space, an optional sign, a run of digits and a tail that does not start with a digit, the result is the digits' value, negated after `-`. |
| Strings.ParseIntNaN | functions/utils/config.ts:63 | Any input with no digit after its white space and optional sign parses to NaN. |
| ConfigStore.ListVar | functions/utils/config.ts:60-64 | An unset or empty variable gives `[]`. Otherwise the raw comma split: commas + 1 entries, none containing a comma, that join back to the variable. |
| ConfigStore.TimeoutVar | functions/utils/config.ts:63-72 | The timeout is 5 when the variable is unset, empty or has no leading integer. Otherwise it is the leading integer `parseInt` reads. |
| ConfigStore.FromEnv | functions/utils/config.ts:58-74 | `publicAccess` and `ddosMode` are true iff their variable is exactly `"true"`. The lists and timeout are parsed as above, `adminPassword` comes from the environment, `source` is ENV and there is no fallback password. |
| ConfigStore.Overlay | functions/utils/config.ts:42-51 | Stored fields override the defaults field by field. `source` is KV and `fallbackPassword` is the environment password, whatever the stored object said. |
| ConfigStore.GetConfig | functions/utils/config.ts:24-80 | The cache is read only when no store is bound. A stored object wins and leaves the cache alone. Otherwise the environment is parsed and cached. A filled cache is never emptied. |
| ConfigStore.CachedConfigIsSticky | functions/utils/config.ts:27-29 | With no store bound, every later call returns the cached config, however the environment changes. |
| ConfigStore.FirstParseWins | functions/utils/config.ts:27-77 | Starting from an empty cache with no store, every call returns the first call's parse of the environment. |
| ConfigStore.Merge | functions/utils/config.ts:90-97 | Each of the six fields comes from the patch unless it is nullish, else from the current config. `source` and `fallbackPassword` are never written. |
| ConfigStore.SaveConfig | functions/utils/config.ts:82-106 | With no store bound it returns false, writes nothing and leaves the cache alone. Otherwise it succeeds iff the put does, and what it writes is the merge against the loaded config. The cache afterwards is the one that load leaves, so it is never emptied. |
| ConfigStore.SaveThenLoad | functions/utils/config.ts:42-100 | Loading after a successful save yields the merged values, tagged KV, with the environment password as fallback. |
| ConfigStore.MergeIdempotent | functions/utils/config.ts:90-97 | Saving the same patch again over the reloaded config writes the same object. |
| ConfigStore.FalsyValuesOverride | functions/utils/config.ts:90-97 | `false`, `0` and `[]` in a patch override the current values. |
| ConfigStore.ConfigJson | functions/api/admin.ts:28 | The serialized config has exactly the six always-present keys, plus each password key exactly when it is defined. Every value is the config's own, the passwords in clear. |
| ConfigStore.ConfigJsonRoundTrip | functions/api/admin.ts:28 | Nothing is lost in the GET response: every config, passwords included, reads back from its serialization. |
| AccessControl.Filename | functions/_middleware.ts:15 | The filename is a slash-free suffix of the path, preceded by `/` unless it is the whole path. |
| AccessControl.Decide | functions/_middleware.ts:8-82 | Bypass iff admin path. The DDoS 403 happens iff the DDoS block holds and no admin or public-image rule fired. Allow iff non-admin and either a public-image hit, or no DDoS block and (public access or a self/whitelisted referer). |
| AccessControl.Respond | functions/_middleware.ts:21-82 | A bypass returns the next response untouched. An allow returns it with `Access-Control-Allow-Origin: *`. A DDoS refusal is exactly a 403 `Access Denied (DDoS Protection: No Referer)`, and any other refusal is exactly a 403 `Access Denied: Protected Resource`. Neither has the CORS header. |
| AccessControl.Handle | functions/_middleware.ts:3-83 | Admin paths never load the config: the response is the next one and the cache is unchanged. Otherwise the CORS header is added iff allowed. An allowed response keeps the next handler's status and body. Every denial is a 403 without the CORS header, carrying the No Referer text for the DDoS refusal and the protected-resource text otherwise. |
| AccessControl.DenialResponses | functions/_middleware.ts:21-82 | The middleware's own response is the No Referer 403 iff DDoS mode blocks a non-admin, non-public-image request. It is the protected-resource 403 iff no rule admits such a request. On an admin path it is whatever the next handler returned. |
| AccessControl.AdminPathIgnoresConfig | functions/_middleware.ts:8-10 | For an admin path the decision is Bypass under every config. |
| AccessControl.AdministratorIsBypassed | functions/_middleware.ts:8 | `/administrator` is bypassed as well (plain prefix test). |
| AccessControl.PublicImageBeatsDdos | functions/_middleware.ts:21-29 | A public image is allowed even in DDoS mode with no referer. |
| AccessControl.PublicAccessAllowsAll | functions/_middleware.ts:46-48 | Public access allows every non-admin request. |
| AccessControl.SelfRefererAllowed | functions/_middleware.ts:53-59 | A referer whose host is the request's host is allowed. |
| AccessControl.UnparseableReferer | functions/_middleware.ts:51-67 | A present but unparseable referer never causes the DDoS block. It is allowed iff public access or a public image applies, and refused with the protected-resource 403 otherwise. |
| AccessControl.InWhitelistIff | functions/_middleware.ts:62 | `whitelist.some(...)` holds iff some entry matches. |
| AccessControl.DomainMatchesIff | functions/_middleware.ts:62 | An entry matches a host iff it equals it, or the host is some text followed by `.` and the entry. |
| AccessControl.SuffixWithoutDotRejected | functions/_middleware.ts:62 | `evilexample.com` does not match `example.com`; `sub.example.com` does. |
| AccessControl.WhitelistMonotone | functions/_middleware.ts:62 | Adding whitelist entries never turns an allow into a deny. |
| AccessControl.PublicImagesMonotone | functions/_middleware.ts:21 | Adding public images never turns an allow into a deny. |
| AccessControl.PublicAccessMonotone | functions/_middleware.ts:46 | Enabling public access never turns an allow into a deny. |
| AccessControl.DdosModeMonotone | functions/_middleware.ts:34 | Enabling DDoS mode never turns a deny into an allow. |
| DebugEndpoint.Analyze | functions/api/debug.ts:19-38 | A present referer is reported as its own text. No referer, or a literal `(none)` header, shows `(none)` with both flags false. An unparseable one shows `(invalid URL)` with both flags false. A parsed one reports its host, same-host iff equal, and whitelisted iff some entry matches. `wouldBeAllowed` is public access or either flag. |
| DebugEndpoint.ConfigView | functions/api/debug.ts:43-50 | The reported config has exactly the source and the five access fields, each with the config's own value, and never a password. |
| DebugEndpoint.Report | functions/api/debug.ts:40-67 | The report's `config` member is the password-free view. Its `request` and `analysis` members are those of the given analysis, and `envVarsPresent` is the presence of the environment's variables. |
| DebugEndpoint.Handle | functions/api/debug.ts:9-72 | Status 200 with the CORS header, and no password key in the reported config. The report shows the view of the config loaded through the cache, and the analysis of this request under that config. |
| DebugEndpoint.AgreesWithMiddleware | functions/api/debug.ts:59 | For non-admin, non-public-image paths, `wouldBeAllowed` equals the middleware's allow decision, DDoS mode included. |
| DebugEndpoint.ReportedVerdictIsMiddlewares | functions/api/debug.ts:9-60 | In the endpoint's actual response, `wouldBeAllowed` is true iff the middleware allows the same request under the loaded config, for non-admin, non-public-image paths. |
| DebugEndpoint.SameWhitelistTest | functions/api/debug.ts:32-34 | The reported whitelist flag is the middleware's whitelist predicate. |
| ManifestBuilder.KeepImages | scripts/generate-manifest.js:20-22 | The result is at most as long as the listing. A name is kept iff it is listed and has an image extension, compared case-insensitively. |
| ManifestBuilder.KeepImagesAppend | scripts/generate-manifest.js:20-22 | Filtering distributes over concatenation, so directory order is preserved. |
| ManifestBuilder.KeepImagesMultiplicity | scripts/generate-manifest.js:20-22 | No de-duplication: each image name is kept as many times as it is listed. |
| ManifestBuilder.GetImages | scripts/generate-manifest.js:18-23 | A missing directory gives `[]`; otherwise the filtered listing. |
| ManifestBuilder.Prefixed | scripts/generate-manifest.js:26-27 | Every entry is the prefix followed by the corresponding name. |
| ManifestBuilder.Build | scripts/generate-manifest.js:25-28 | Each orientation list is the filtered listing in directory order, each entry prefixed with its orientation's directory. It is no longer than the listing. |
| ManifestBuilder.ListedImagesAreBuilt | scripts/generate-manifest.js:18-28 | A prefixed name is in an orientation's list iff the directory exists and lists the name as an image file. |
| ManifestBuilder.BuiltEntriesAreImagePaths | scripts/generate-manifest.js:21-27 | Every vertical entry starts with `/images/vertical/`, every horizontal one with `/images/horizontal/`, and all have an image extension. |
| ManifestBuilder.ExtensionExamples | scripts/generate-manifest.js:21 | `cat.JPG` is kept and `notes.txt` is not. |
| RandomImage.ResolveOrientation | functions/random.ts:13-26 | `type=v` gives vertical and `type=h` horizontal. Otherwise vertical iff some mobile token occurs case-insensitively in the user agent. |
| RandomImage.PickIndex | functions/random.ts:42 | `floor(r * n)` with `0 <= r < 1` is a valid index. |
| RandomImage.ChooseMode | functions/random.ts:48-67 | `redirect=true` redirects and `redirect=false` proxies. Otherwise it proxies iff `Accept` contains `text/html`. |
| RandomImage.CacheHeaders | functions/random.ts:72-79 | Exactly `Cache-Control` and `X-DDoS-Protection`. In DDoS mode: the edge-cache string and `Active`. Otherwise: the no-store string and `Inactive`. |
| RandomImage.EdgeCacheControlCarriesTimeout | functions/random.ts:74 | In DDoS mode both max-ages in `Cache-Control` read back as the configured timeout. |
| RandomImage.Handle | functions/random.ts:29-101 | An empty list gives a JSON 404 naming the orientation. A redirect gives 302 with no body, `Location` set to the picked image, and the cache headers. A proxy gives 200 with the cache headers plus upstream's `Content-Type` and `ETag`: each is present iff upstream has it non-empty, with upstream's value. A failed fetch gives 502 `Failed to fetch image` with no cache headers. |
| RandomImage.Serve | functions/random.ts:4-9 | The config is loaded through the cache before answering. With no store bound, a cached config is used and kept. The first such request parses the environment and caches it. |
| RandomImage.ChosenImageIsListed | functions/random.ts:42 | The picked image is an element of the resolved list. |
| RandomImage.EmptyListTakesNoIndex | functions/random.ts:34-42 | For an empty list the response does not depend on the random value, the origin or the upstream. |
| RandomImage.ProxyIgnoresUpstreamStatus | functions/random.ts:86-97 | A proxied response is 200 whatever status the upstream returned. |
| RandomImage.ChosenImageFromBuiltManifest | functions/random.ts:29-42 | From a generated manifest, the picked image lies under the resolved orientation's directory and has an image extension. |
| RandomImage.MobileExamples | functions/random.ts:23 | An upper-cased `ANDROID` is mobile, `type=h` overrides an iPhone user agent, and an unknown `type` with no user agent is horizontal. |
| ApiRandom.Handle | functions/api/random.ts:29-52 | An empty list gives a 404 with the category message. Otherwise it always gives 302 with no body, `Location` set to some listed image, and otherwise exactly the cache headers. It never proxies. |
| ApiRandom.SameRedirectAsMainEndpoint | functions/api/random.ts:38-52 | Whenever the main endpoint redirects, both endpoints return the identical response for the same random value. |
| ApiRandom.HandleAsWritten | functions/api/random.ts:9 | As written, the handler loads the config (updating the cache) and then throws. |
| ApiRandom.HandleCorrected | functions/api/random.ts:9-52 | With `const config`, the handler returns a 302 or a 404 response, after the same cache update. |
| ApiRandom.AsWrittenNeverResponds | functions/api/random.ts:9 | For every input the written handler throws where the corrected one responds. |
| Admin.ProvidedPassword | functions/api/admin.ts:10-11 | An absent or empty header gives no password. A header without `Bearer ` is taken whole. Otherwise the first occurrence of `Bearer ` is removed wherever it is, and the rest of the header is kept. |
| Admin.BearerRoundTrip | functions/api/admin.ts:11 | `Bearer <p>` yields exactly `p`. |
| Admin.BearerRemovedAnywhere | functions/api/admin.ts:11 | The first `Bearer ` is removed even mid-string: `xBearer y` yields `xy`. |
| Admin.Handle | functions/api/admin.ts:3-54 | A failed check gives 401 for every method with nothing written. An authorized GET gives 200 with the config JSON. POST with no store gives the read-only 403 before the body is read; a bad or `null` body gives 400; a failed save gives 500; a successful one gives 200 `{success:true}` and writes the merge. Any other method gives 405. Nothing is written outside an authorized POST. The cache afterwards is always the one the initial load leaves. |
| Admin.NoAdminPasswordMeansOpen | functions/api/admin.ts:21 | With no or an empty admin password every request passes, even if a fallback password exists. |
| Admin.EitherPasswordAccepted | functions/api/admin.ts:16-19 | Either the admin or the fallback password, as a bearer token, is accepted. |
| Admin.EmptyCredentialsRefused | functions/api/admin.ts:16-23 | When enforced, a missing header and an empty bearer token are refused. |
| Admin.UnauthorizedForEveryMethod | functions/api/admin.ts:21-23 | A failed check is 401 and writes nothing, before any dispatch. |

## Findings

| source | as written | input that shows it | evidently intended | confidence | as-written member | corrected member |
|---|---|---|---|---|---|---|
| functions/api/random.ts:9 | `constconfig = await getConfig(env)` assigns to an undeclared name. In an ES module, which is strict code, that throws a ReferenceError after `getConfig` has run. The `config` read at line 41 is never declared either. | any request to `/api/random` | `const config = await getConfig(env)` | high that the line is a typo; the runtime outcome depends on how the function is bundled; not executed | ApiRandom.HandleAsWritten | ApiRandom.HandleCorrected |

`ApiRandom.AsWrittenNeverResponds` exhibits the discrepancy. The rest of
the model (`ApiRandom.Handle`, `ApiRandom.SameRedirectAsMainEndpoint`)
uses the corrected handler.

## Left out

- Platform I/O is left out: `fetch`, `next()`, `Response` and `Headers` objects, key-value `get`/`put` and `console` logging. They are inputs and records here: the next handler's response, a `Fetch` result, a `KvRead` result and a `putOk` flag.
- Headers are a map keyed by the name as the source spells it. Header-name case folding and the default `Content-Type` a platform adds to text bodies are not modelled.
- URL handling is left out: `new URL(referer).hostname` is a parameter returning `None` where the constructor throws, and `new URL(path, origin).toString()` is a parameter too. Host names are compared raw and case-sensitively, as the code does. Percent-encoding of the path is not modelled.
- `Math.random()` is a real `r` with `0 <= r < 1`. Uniformity is not modelled, and neither is floating-point rounding of `r * n`.
- `JSON.parse` and `JSON.stringify` are left out. The stored config is an already-decoded record of optional fields, and `None` there means the key is absent. Stored values of the wrong JSON type are not modelled. That includes a stored `null`, which the spread copies over the default, so a stored `ddosCacheTimeout: null` would print `s-maxage=null`. Extra unknown keys and the key order of serialized objects are not modelled either.
- `ddosCacheTimeout` is an integer. A fractional number such as a POSTed `2.5` is stored, loaded and printed as `s-maxage=2.5` by the code, but is not modelled. Neither is a number of 1e21 or more, which prints in exponent form (`1e+21`). Config.ddosCacheTimeout and the JSON numbers are integers throughout.
- Strings.ParseInt: a value beyond 2^53 is kept exact rather than rounded to a double, and `-0` is 0.
- Strings are sequences of Unicode code points, not UTF-16 code units. Positions and lengths differ for characters outside the Basic Multilingual Plane; the access, orientation and filter decisions do not.
- The request method is compared as given. The platform's upper-casing of standard method names is not modelled.
- DebugEndpoint.Handle: the constant `message` and `warning` texts of the report are not modelled. Neither is the 500 catch path, because nothing inside the modelled handler throws.
- functions/health.ts is not part of this model. It is a HEAD probe around `fetch`, and its `X-Internal-Request` header is not honoured by the middleware.
- scripts/optimize-images.js is not part of this model: it renames and deletes files and runs an external encoder.
- functions/env.d.ts holds declarations only. Where the store binding lives is a platform detail; here it is `Env.kv` being present.
- Concurrency and isolate reuse are not modelled. The cache is a sequential two-state value.

=== FILE: admin.dfy ===
/** The configuration admin endpoint (functions/api/admin.ts): a bearer
    password gate in front of reading and saving the config. */
module Admin {
  import opened Wrappers
  import opened Strings
  import opened Http
  import opened ConfigStore

  /** The request body as `request.json()` sees it: not JSON, JSON `null`
      (on which reading a field throws), or an object (a value of another
      JSON type reads as an object without the six fields). */
  datatype PostBody = InvalidJson | NullJson | Object(patch: Patch)

  datatype AdminRequest = AdminRequest(httpMethod: string, authorization: Option<string>, body: PostBody)

  /** The response, the cache afterwards, and what was written to the store. */
  datatype AdminResult = AdminResult(response: Response, cache: Cache, written: Option<Stored>)

  const BearerPrefix := "Bearer "
  const ReadOnlyMessage := "Configuration is Read-Only: No KV binding. Please bind EO_KV in EdgeOne console."

  /** `authHeader ? authHeader.replace('Bearer ', '') : null`: the first
      `Bearer ` is removed wherever it occurs. */
  function ProvidedPassword(authorization: Option<string>): (p: Option<string>)
    ensures !Truthy(authorization) ==> p.None?
    ensures Truthy(authorization) ==> p.Some? && |p.value| <= |authorization.value|
    ensures Truthy(authorization) && !Contains(authorization.value, BearerPrefix) ==> p == authorization
    ensures Truthy(authorization) && Contains(authorization.value, BearerPrefix) ==>
      |p.value| == |authorization.value| - |BearerPrefix|
    ensures Truthy(authorization) && Contains(authorization.value, BearerPrefix) ==>
      var h := authorization.value;
      var k := IndexOf(h, BearerPrefix).value;
      p == Some(h[..k] + h[k + |BearerPrefix|..])
  {
    if Truthy(authorization) then
      var h := authorization.value;
      match IndexOf(h, BearerPrefix)
      case None => Some(h)
      case Some(k) =>
        assert ReplaceFirst(h, BearerPrefix, "") == h[..k] + h[k + |BearerPrefix|..];
        Some(ReplaceFirst(h, BearerPrefix, ""))
    else None
  }

  /** A well-formed header yields exactly the password after the prefix. */
  lemma BearerRoundTrip(password: string)
    ensures ProvidedPassword(Some(BearerPrefix + password)) == Some(password)
  {
    var h := BearerPrefix + password;
    assert StartsWith(h, BearerPrefix);
    assert IndexOf(h, BearerPrefix) == Some(0);
    assert h[..0] + "" + h[|BearerPrefix|..] == password;
    assert ReplaceFirst(h, BearerPrefix, "") == password;
  }

  /** The prefix is removed even when it is not at the start. */
  lemma BearerRemovedAnywhere()
    ensures ProvidedPassword(Some("xBearer y")) == Some("xy")
  {
    var h := "xBearer y";
    assert h[..|BearerPrefix|][0] == 'x';
    assert !StartsWith(h, BearerPrefix);
    assert StartsWith(h[1..], BearerPrefix);
    assert IndexOf(h[1..], BearerPrefix) == Some(0);
    assert IndexOf(h, BearerPrefix) == Some(1);
    assert h[..1] + "" + h[1 + |BearerPrefix|..] == "xy";
    assert ReplaceFirst(h, BearerPrefix, "") == "xy";
  }

  /** The password check applies only when an admin password is set and
      non-empty. */
  predicate AuthEnforced(config: Config) {
    Truthy(config.adminPassword)
  }

  /** Either password is accepted; an empty one never is. */
  predicate PasswordValid(provided: Option<string>, config: Config) {
    Truthy(provided) && (provided == config.adminPassword || provided == config.fallbackPassword)
  }

  predicate Authorized(authorization: Option<string>, config: Config) {
    !AuthEnforced(config) || PasswordValid(ProvidedPassword(authorization), config)
  }

  function Unauthorized(): Response {
    Response(401, map[], Text("Unauthorized"))
  }

  function JsonHeaders(): Headers {
    map["Content-Type" := "application/json"]
  }

  /** `onRequest`. `putOk` says whether the store accepts a write. */
  function Handle(env: Env, cache: Cache, req: AdminRequest, putOk: bool): (r: AdminResult)
    ensures var loaded := GetConfig(env, cache);
      var ok := Authorized(req.authorization, loaded.config);
      && (!ok ==> r == AdminResult(Unauthorized(), loaded.cache, None))
      && (ok && req.httpMethod == "GET" ==>
            r == AdminResult(Response(200, JsonHeaders(), JsonBody(ConfigJson(loaded.config))), loaded.cache, None))
      && (ok && req.httpMethod == "POST" && env.kv.None? ==>
            r == AdminResult(Response(403, map[], Text(ReadOnlyMessage)), loaded.cache, None))
      && (ok && req.httpMethod == "POST" && env.kv.Some? && !req.body.Object? ==>
            r.response == Response(400, map[], Text("Invalid JSON")) && r.written.None?)
      && (ok && req.httpMethod == "POST" && env.kv.Some? && req.body.Object? ==>
            && (putOk ==> r.response == Response(200, JsonHeaders(), JsonBody(JObj(map["success" := JBool(true)])))
                          && r.written == Some(Merge(req.body.patch, loaded.config)))
            && (!putOk ==> r.response == Response(500, map[], Text("Failed to save config")) && r.written.None?))
      && (ok && req.httpMethod != "GET" && req.httpMethod != "POST" ==>
            r == AdminResult(Response(405, map[], Text("Method Not Allowed")), loaded.cache, None))
      && (r.written.Some? ==> ok && req.httpMethod == "POST")
      // saving loads the config again, which leaves the cache as the first load did
      && r.cache == loaded.cache
  {
    var provided := ProvidedPassword(req.authorization);
    var loaded := GetConfig(env, cache);
    if AuthEnforced(loaded.config) && !PasswordValid(provided, loaded.config) then
      AdminResult(Unauthorized(), loaded.cache, None)
    else if req.httpMethod == "GET" then
      AdminResult(Response(200, JsonHeaders(), JsonBody(ConfigJson(loaded.config))), loaded.cache, None)
    else if req.httpMethod == "POST" then
      if env.kv.None? then
        AdminResult(Response(403, map[], Text(ReadOnlyMessage)), loaded.cache, None)
      else
        match req.body
        case InvalidJson => AdminResult(Response(400, map[], Text("Invalid JSON")), loaded.cache, None)
        case NullJson => AdminResult(Response(400, map[], Text("Invalid JSON")), loaded.cache, None)
        case Object(p) =>
          var saved := SaveConfig(env, loaded.cache, p, putOk);
          if saved.ok then
            AdminResult(Response(200, JsonHeaders(), JsonBody(JObj(map["success" := JBool(true)]))), saved.cache, saved.written)
          else
            AdminResult(Response(500, map[], Text("Failed to save config")), saved.cache, saved.written)
    else
      AdminResult(Response(405, map[], Text("Method Not Allowed")), loaded.cache, None)
  }

  /** With no (or an empty) admin password, every request passes the gate,
      even when a fallback password exists. */
  lemma NoAdminPasswordMeansOpen(authorization: Option<string>, config: Config)
    requires !Truthy(config.adminPassword)
    ensures Authorized(authorization, config)
  {
  }

  /** Either password, sent as a bearer token, opens the gate. */
  lemma EitherPasswordAccepted(password: string, config: Config)
    requires password != ""
    requires config.adminPassword == Some(password) || config.fallbackPassword == Some(password)
    ensures Authorized(Some(BearerPrefix + password), config)
  {
    BearerRoundTrip(password);
  }

  /** When the gate is enforced, a missing header and an empty bearer token
      are both refused. */
  lemma EmptyCredentialsRefused(config: Config)
    requires AuthEnforced(config)
    ensures !Authorized(None, config)
    ensures !Authorized(Some(BearerPrefix), config)
  {
    BearerRoundTrip("");
    assert BearerPrefix + "" == BearerPrefix;
  }

  /** A failed check is 401 whatever the method, and nothing is written. */
  lemma UnauthorizedForEveryMethod(env: Env, cache: Cache, req: AdminRequest, putOk: bool)
    requires !Authorized(req.authorization, GetConfig(env, cache).config)
    ensures Handle(env, cache, req, putOk).response.status == 401
    ensures Handle(env, cache, req, putOk).written.None?
  {
  }
}

=== FILE: api_random.dfy ===
/** The redirect-only random-image endpoint (functions/api/random.ts). */
module ApiRandom {
  import opened Wrappers
  import opened Http
  import opened ConfigStore
  import opened ManifestBuilder
  import opened RandomImage

  const NotFoundMessage := "No images found for this category"

  /** `onRequest` once the config is loaded, with the config bound to the
      name `config` that the cache-header code reads. */
  function Handle(q: Query, config: Config, manifest: Manifest, r: real,
                  resolve: string -> string): (resp: Response)
    requires 0.0 <= r < 1.0
    ensures var images := Images(manifest, ResolveOrientation(q.typeParam, q.userAgent));
      && (|images| == 0 ==> resp == Response(404, map[], Text(NotFoundMessage)))
      && (|images| > 0 ==>
            && resp.status == 302 && resp.body == NoBody
            && "Location" in resp.headers
            && (exists i :: 0 <= i < |images| && resp.headers["Location"] == resolve(images[i]))
            && resp.headers - {"Location"} == CacheHeaders(config))
  {
    var images := Images(manifest, ResolveOrientation(q.typeParam, q.userAgent));
    if |images| == 0 then
      Response(404, map[], Text(NotFoundMessage))
    else
      var i := PickIndex(|images|, r);
      var headers := map["Location" := resolve(images[i])];
      var cache := CacheHeaders(config);
      var all := headers["Cache-Control" := cache["Cache-Control"]]["X-DDoS-Protection" := cache["X-DDoS-Protection"]];
      assert all - {"Location"} == cache;
      Response(302, all, NoBody)
  }

  /** Whenever the main endpoint decides to redirect, both endpoints answer
      the same: same status, `Location` and cache headers. */
  lemma SameRedirectAsMainEndpoint(q: Query, config: Config, manifest: Manifest, r: real,
                                   resolve: string -> string, upstream: Fetch)
    requires 0.0 <= r < 1.0
    requires |Images(manifest, ResolveOrientation(q.typeParam, q.userAgent))| > 0
    requires ChooseMode(q.redirectParam, q.accept) == Redirect
    ensures Handle(q, config, manifest, r, resolve) == RandomImage.Handle(q, config, manifest, r, resolve, upstream)
  {
  }

  /** How a handler invocation ended. */
  datatype Completion = Returned(response: Response) | Threw(error: string)

  /** The handler as written: its first statement assigns the awaited config
      to `constconfig`, a name never declared. In an ES module (strict code)
      that assignment throws a ReferenceError once `getConfig` has run, so
      the handler never reaches the image selection. */
  function HandleAsWritten(env: Env, cache: Cache, q: Query, manifest: Manifest, r: real,
                           resolve: string -> string): (out: (Completion, Cache))
    requires 0.0 <= r < 1.0
    ensures out.0.Threw? && out.1 == GetConfig(env, cache).cache
  {
    var loaded := GetConfig(env, cache);
    (Threw("ReferenceError: constconfig is not defined"), loaded.cache)
  }

  /** The corrected handler, `const config = await getConfig(env)` followed
      by the selection. */
  function HandleCorrected(env: Env, cache: Cache, q: Query, manifest: Manifest, r: real,
                           resolve: string -> string): (out: (Completion, Cache))
    requires 0.0 <= r < 1.0
    ensures out.1 == GetConfig(env, cache).cache
    ensures out.0.Returned? && out.0.response.status in {302, 404}
  {
    var loaded := GetConfig(env, cache);
    (Returned(Handle(q, loaded.config, manifest, r, resolve)), loaded.cache)
  }

  /** The discrepancy: for every request, even one with images to serve,
      the handler as written fails where the intended one answers. */
  lemma AsWrittenNeverResponds(env: Env, cache: Cache, q: Query, manifest: Manifest, r: real,
                               resolve: string -> string)
    requires 0.0 <= r < 1.0
    ensures HandleAsWritten(env, cache, q, manifest, r, resolve).0.Threw?
    ensures HandleCorrected(env, cache, q, manifest, r, resolve).0.Returned?
  {
  }
}

=== FILE: config.dfy ===
/** Configuration loading, caching and saving (functions/utils/config.ts). */
module ConfigStore {
  import opened Wrappers
  import opened Strings
  import opened Http

  datatype Source = KV | ENV

  datatype Config = Config(
    publicAccess: bool,
    whitelist: seq<string>,
    adminPassword: Option<string>,
    fallbackPassword: Option<string>,
    source: Source,
    ddosMode: bool,
    ddosCacheTimeout: int,
    publicImages: seq<string>)

  const DefaultCacheTimeout := 5

  const DefaultConfig := Config(false, [], None, None, ENV, false, DefaultCacheTimeout, [])

  /** A configuration object as stored in the key-value store, already
      decoded from JSON: `None` is a key that is absent. */
  datatype Stored = Stored(
    publicAccess: Option<bool>,
    whitelist: Option<seq<string>>,
    adminPassword: Option<string>,
    fallbackPassword: Option<string>,
    source: Option<string>,
    ddosMode: Option<bool>,
    ddosCacheTimeout: Option<int>,
    publicImages: Option<seq<string>>)

  /** What reading key `CONFIG` from a bound store produced: an exception
      (from the store or from `JSON.parse`), a falsy value (`null` or `""`),
      or a decoded object. */
  datatype KvRead = KvThrew | KvEmpty | KvValue(stored: Stored)

  /** The deployment's environment. Variables are `None` when unset; `kv` is
      `None` when no store is bound, otherwise the outcome of reading it. */
  datatype Env = Env(
    adminPassword: Option<string>,
    publicAccessVar: Option<string>,
    whitelistVar: Option<string>,
    ddosModeVar: Option<string>,
    cacheTimeoutVar: Option<string>,
    publicImagesVar: Option<string>,
    kv: Option<KvRead>)

  /** The module-level `globalConfigCache`: empty, or holding a config. */
  datatype Cache = Empty | Cached(config: Config)

  /** The cache holds nothing, or a config parsed from the environment. */
  predicate EnvParsed(cache: Cache) {
    cache.Empty? || (cache.config.source == ENV && cache.config.fallbackPassword.None?)
  }

  /** A loaded config together with the cache state after loading it. */
  datatype Loaded = Loaded(config: Config, cache: Cache)

  /** `v ? v.split(',') : []` */
  function ListVar(v: Option<string>): (r: seq<string>)
    ensures !Truthy(v) ==> r == []
    ensures Truthy(v) ==> |r| == Count(v.value, ',') + 1 && Join(r, ',') == v.value
    ensures forall i :: 0 <= i < |r| ==> ',' !in r[i]
  {
    if Truthy(v) then
      SplitCount(v.value, ',');
      JoinSplit(v.value, ',');
      SplitPiecesHaveNoSeparator(v.value, ',');
      Split(v.value, ',')
    else []
  }

  /** `v ? parseInt(v, 10) : 5`, then 5 again when that is `NaN`. */
  function TimeoutVar(v: Option<string>): (r: int)
    ensures !Truthy(v) ==> r == DefaultCacheTimeout
    ensures Truthy(v) && ParseInt(v.value).None? ==> r == DefaultCacheTimeout
    ensures Truthy(v) && ParseInt(v.value).Some? ==> r == ParseInt(v.value).value
  {
    if Truthy(v) then ParseInt(v.value).GetOr(DefaultCacheTimeout) else DefaultCacheTimeout
  }

  /** The environment-variable branch of `getConfig`. */
  function FromEnv(env: Env): (c: Config)
    ensures c.publicAccess <==> env.publicAccessVar == Some("true")
    ensures c.ddosMode <==> env.ddosModeVar == Some("true")
    ensures c.whitelist == ListVar(env.whitelistVar)
    ensures c.publicImages == ListVar(env.publicImagesVar)
    ensures c.ddosCacheTimeout == TimeoutVar(env.cacheTimeoutVar)
    ensures c.adminPassword == env.adminPassword
    ensures c.fallbackPassword.None? && c.source == ENV
  {
    Config(
      publicAccess := env.publicAccessVar == Some("true"),
      whitelist := ListVar(env.whitelistVar),
      adminPassword := env.adminPassword,
      fallbackPassword := None,
      source := ENV,
      ddosMode := env.ddosModeVar == Some("true"),
      ddosCacheTimeout := TimeoutVar(env.cacheTimeoutVar),
      publicImages := ListVar(env.publicImagesVar))
  }

  /** `{...DEFAULT_CONFIG, ...parsed, source: 'KV', fallbackPassword: env.ADMIN_PASSWORD}` */
  function Overlay(s: Stored, env: Env): (c: Config)
    ensures c.source == KV && c.fallbackPassword == env.adminPassword
    ensures c.publicAccess == s.publicAccess.GetOr(DefaultConfig.publicAccess)
    ensures c.whitelist == s.whitelist.GetOr(DefaultConfig.whitelist)
    ensures c.adminPassword == s.adminPassword
    ensures c.ddosMode == s.ddosMode.GetOr(DefaultConfig.ddosMode)
    ensures c.ddosCacheTimeout == s.ddosCacheTimeout.GetOr(DefaultConfig.ddosCacheTimeout)
    ensures c.publicImages == s.publicImages.GetOr(DefaultConfig.publicImages)
  {
    var d := DefaultConfig;
    Config(
      publicAccess := s.publicAccess.GetOr(d.publicAccess),
      whitelist := s.whitelist.GetOr(d.whitelist),
      adminPassword := if s.adminPassword.Some? then s.adminPassword else d.adminPassword,
      fallbackPassword := env.adminPassword,
      source := KV,
      ddosMode := s.ddosMode.GetOr(d.ddosMode),
      ddosCacheTimeout := s.ddosCacheTimeout.GetOr(d.ddosCacheTimeout),
      publicImages := s.publicImages.GetOr(d.publicImages))
  }

  /** `getConfig(env)` together with its effect on the module-level cache. */
  function GetConfig(env: Env, cache: Cache): (r: Loaded)
    // the cache is consulted only when no store is bound
    ensures env.kv.None? && cache.Cached? ==> r == Loaded(cache.config, cache)
    // a stored object wins, and leaves the cache alone
    ensures env.kv.Some? && env.kv.value.KvValue? ==>
      r == Loaded(Overlay(env.kv.value.stored, env), cache)
    // otherwise the environment is parsed, and the cache is (re)filled with it
    ensures (env.kv.None? && cache.Empty?) || (env.kv.Some? && !env.kv.value.KvValue?) ==>
      r.config == FromEnv(env) && r.cache == Cached(r.config)
    // the cache only ever holds parsed environments, so `source` tells the branch
    ensures EnvParsed(cache) ==> EnvParsed(r.cache)
    ensures EnvParsed(cache) ==> (r.config.source == KV <==> env.kv.Some? && env.kv.value.KvValue?)
    // once filled, the cache is never emptied again
    ensures cache.Cached? ==> r.cache.Cached?
  {
    if env.kv.None? && cache.Cached? then
      Loaded(cache.config, cache)
    else if env.kv.Some? && env.kv.value.KvValue? then
      Loaded(Overlay(env.kv.value.stored, env), cache)
    else
      var c := FromEnv(env);
      Loaded(c, Cached(c))
  }

  /** What a request handler produced: its response and the cache afterwards. */
  datatype Handled = Handled(response: Response, cache: Cache)

  /** The configs returned by a sequence of `getConfig` calls, in order. */
  function LoadAll(envs: seq<Env>, cache: Cache): (r: seq<Config>)
    ensures |r| == |envs|
  {
    if |envs| == 0 then []
    else
      var l := GetConfig(envs[0], cache);
      [l.config] + LoadAll(envs[1..], l.cache)
  }

  predicate NoStoreBound(envs: seq<Env>) {
    forall i :: 0 <= i < |envs| ==> envs[i].kv.None?
  }

  /** With no store bound, a filled cache answers every later call with the
      same config, whatever the environment has become. */
  lemma {:induction false} CachedConfigIsSticky(envs: seq<Env>, c: Config)
    requires NoStoreBound(envs)
    ensures forall i :: 0 <= i < |envs| ==> LoadAll(envs, Cached(c))[i] == c
  {
    if |envs| > 0 {
      assert NoStoreBound(envs[1..]) by {
        forall i | 0 <= i < |envs[1..]| ensures envs[1..][i].kv.None? {
          assert envs[1..][i] == envs[i + 1];
        }
      }
      CachedConfigIsSticky(envs[1..], c);
      var r := LoadAll(envs, Cached(c));
      forall i | 0 <= i < |envs| ensures r[i] == c {
        if i > 0 { assert r[i] == LoadAll(envs[1..], Cached(c))[i - 1]; }
      }
    }
  }

  /** With no store bound, the first call's parse of the environment is what
      every call in the process returns. */
  lemma FirstParseWins(envs: seq<Env>)
    requires |envs| > 0 && NoStoreBound(envs)
    ensures forall i :: 0 <= i < |envs| ==> LoadAll(envs, Empty)[i] == FromEnv(envs[0])
  {
    var c := FromEnv(envs[0]);
    assert NoStoreBound(envs[1..]) by {
      forall i | 0 <= i < |envs[1..]| ensures envs[1..][i].kv.None? {
        assert envs[1..][i] == envs[i + 1];
      }
    }
    CachedConfigIsSticky(envs[1..], c);
    var r := LoadAll(envs, Empty);
    forall i | 0 <= i < |envs| ensures r[i] == c {
      if i > 0 { assert r[i] == LoadAll(envs[1..], Cached(c))[i - 1]; }
    }
  }

  // ---------------------------------------------------------------------------
  // saveConfig
  // ---------------------------------------------------------------------------

  /** The decoded body of a save request (`Partial<Config>`): `None` is a key
      that is absent or `null`, which `??` treats alike. */
  datatype Patch = Patch(
    publicAccess: Option<bool>,
    whitelist: Option<seq<string>>,
    adminPassword: Option<string>,
    ddosMode: Option<bool>,
    ddosCacheTimeout: Option<int>,
    publicImages: Option<seq<string>>)

  const EmptyPatch := Patch(None, None, None, None, None, None)

  /** The object `saveConfig` writes: each of the six fields from the patch
      unless it is nullish, else from the current config. `source` and
      `fallbackPassword` are never written. */
  function Merge(p: Patch, current: Config): (s: Stored)
    ensures s.source.None? && s.fallbackPassword.None?
    ensures p.publicAccess.Some? ==> s.publicAccess == p.publicAccess
    ensures p.publicAccess.None? ==> s.publicAccess == Some(current.publicAccess)
    ensures p.whitelist.Some? ==> s.whitelist == p.whitelist
    ensures p.whitelist.None? ==> s.whitelist == Some(current.whitelist)
    ensures p.adminPassword.Some? ==> s.adminPassword == p.adminPassword
    ensures p.adminPassword.None? ==> s.adminPassword == current.adminPassword
    ensures p.ddosMode.Some? ==> s.ddosMode == p.ddosMode
    ensures p.ddosMode.None? ==> s.ddosMode == Some(current.ddosMode)
    ensures p.ddosCacheTimeout.Some? ==> s.ddosCacheTimeout == p.ddosCacheTimeout
    ensures p.ddosCacheTimeout.None? ==> s.ddosCacheTimeout == Some(current.ddosCacheTimeout)
    ensures p.publicImages.Some? ==> s.publicImages == p.publicImages
    ensures p.publicImages.None? ==> s.publicImages == Some(current.publicImages)
  {
    Stored(
      publicAccess := Some(p.publicAccess.GetOr(current.publicAccess)),
      whitelist := Some(p.whitelist.GetOr(current.whitelist)),
      adminPassword := if p.adminPassword.Some? then p.adminPassword else current.adminPassword,
      fallbackPassword := None,
      source := None,
      ddosMode := Some(p.ddosMode.GetOr(current.ddosMode)),
      ddosCacheTimeout := Some(p.ddosCacheTimeout.GetOr(current.ddosCacheTimeout)),
      publicImages := Some(p.publicImages.GetOr(current.publicImages)))
  }

  /** The outcome of `saveConfig`: its boolean result, the object written to
      the store (if any), and the cache afterwards. */
  datatype Saved = Saved(ok: bool, written: Option<Stored>, cache: Cache)

  /** `saveConfig(env, patch)`; `putOk` says whether the store's `put`
      succeeded. */
  function SaveConfig(env: Env, cache: Cache, p: Patch, putOk: bool): (r: Saved)
    ensures env.kv.None? ==> r == Saved(false, None, cache)
    ensures r.ok <==> env.kv.Some? && putOk
    ensures r.written.Some? <==> r.ok
    ensures r.ok ==> r.written == Some(Merge(p, GetConfig(env, cache).config))
    // the inner load may fill the cache, and never empties it
    ensures env.kv.Some? ==> r.cache == GetConfig(env, cache).cache
  {
    if env.kv.None? then Saved(false, None, cache)
    else
      var current := GetConfig(env, cache);
      if putOk then Saved(true, Some(Merge(p, current.config)), current.cache)
      else Saved(false, None, current.cache)
  }

  /** Loading right after a successful save yields the merged fields, tagged
      as coming from the store, with the environment password as fallback. */
  lemma SaveThenLoad(env: Env, cache: Cache, p: Patch, cache2: Cache)
    requires env.kv.Some?
    ensures
      var current := GetConfig(env, cache).config;
      var saved := SaveConfig(env, cache, p, true);
      var c := GetConfig(env.(kv := Some(KvValue(saved.written.value))), cache2).config;
      && c.source == KV
      && c.fallbackPassword == env.adminPassword
      && c.publicAccess == p.publicAccess.GetOr(current.publicAccess)
      && c.whitelist == p.whitelist.GetOr(current.whitelist)
      && c.adminPassword == (if p.adminPassword.Some? then p.adminPassword else current.adminPassword)
      && c.ddosMode == p.ddosMode.GetOr(current.ddosMode)
      && c.ddosCacheTimeout == p.ddosCacheTimeout.GetOr(current.ddosCacheTimeout)
      && c.publicImages == p.publicImages.GetOr(current.publicImages)
  {
  }

  /** Saving the same patch again after it was loaded back writes the same
      object: the merge is idempotent. */
  lemma MergeIdempotent(p: Patch, current: Config, env: Env)
    ensures Merge(p, Overlay(Merge(p, current), env)) == Merge(p, current)
  {
  }

  /** Explicit `false`, `0` and `[]` in a patch are values, not absences:
      they override the current config. */
  lemma FalsyValuesOverride(current: Config)
    ensures
      var s := Merge(Patch(Some(false), Some([]), None, Some(false), Some(0), Some([])), current);
      s.publicAccess == Some(false) && s.whitelist == Some([]) && s.ddosMode == Some(false)
      && s.ddosCacheTimeout == Some(0) && s.publicImages == Some([])
  {
  }

  /** The keys `JSON.stringify(config)` always writes. */
  const AlwaysWritten: set<string> :=
    {"publicAccess", "whitelist", "source", "ddosMode", "ddosCacheTimeout", "publicImages"}

  /** `JSON.stringify(config)`: keys whose value is `undefined` are left out,
      and the passwords are written in clear. */
  function ConfigJson(c: Config): (j: Json)
    ensures j.JObj?
    ensures j.fields.Keys == AlwaysWritten
      + (if c.adminPassword.Some? then {"adminPassword"} else {})
      + (if c.fallbackPassword.Some? then {"fallbackPassword"} else {})
    ensures "publicAccess" in j.fields && j.fields["publicAccess"] == JBool(c.publicAccess)
    ensures "whitelist" in j.fields && j.fields["whitelist"] == JStrings(c.whitelist)
    ensures "source" in j.fields && j.fields["source"] == JStr(SourceName(c.source))
    ensures "ddosMode" in j.fields && j.fields["ddosMode"] == JBool(c.ddosMode)
    ensures "ddosCacheTimeout" in j.fields && j.fields["ddosCacheTimeout"] == JNum(c.ddosCacheTimeout)
    ensures "publicImages" in j.fields && j.fields["publicImages"] == JStrings(c.publicImages)
    ensures c.adminPassword.Some? ==>
      "adminPassword" in j.fields && j.fields["adminPassword"] == JStr(c.adminPassword.value)
    ensures c.fallbackPassword.Some? ==>
      "fallbackPassword" in j.fields && j.fields["fallbackPassword"] == JStr(c.fallbackPassword.value)
  {
    var base := map[
      "publicAccess" := JBool(c.publicAccess),
      "whitelist" := JStrings(c.whitelist),
      "source" := JStr(SourceName(c.source)),
      "ddosMode" := JBool(c.ddosMode),
      "ddosCacheTimeout" := JNum(c.ddosCacheTimeout),
      "publicImages" := JStrings(c.publicImages)];
    var withAdmin := if c.adminPassword.Some? then base["adminPassword" := JStr(c.adminPassword.value)] else base;
    JObj(if c.fallbackPassword.Some? then withAdmin["fallbackPassword" := JStr(c.fallbackPassword.value)] else withAdmin)
  }

  function SourceName(s: Source): string {
    match s
    case KV => "KV"
    case ENV => "ENV"
  }

  function SourceOf(name: string): (r: Option<Source>)
    ensures r.Some? <==> name == "KV" || name == "ENV"
    ensures r.Some? ==> SourceName(r.value) == name
  {
    if name == "KV" then Some(KV) else if name == "ENV" then Some(ENV) else None
  }

  /** A string-valued key of a JSON object; `None` when absent. */
  function OptionalString(fields: map<string, Json>, k: string): (r: Option<string>)
    ensures r.Some? <==> k in fields && fields[k].JStr?
  {
    if k in fields && fields[k].JStr? then Some(fields[k].s) else None
  }

  /** Reads a config back from a JSON object: `None` when a key that
      `ConfigJson` always writes is missing or has the wrong type. */
  function ConfigOfJson(j: Json): (r: Option<Config>)
    ensures r.Some? ==> j.JObj? && AlwaysWritten <= j.fields.Keys
  {
    if !j.JObj? then None
    else
      var f := j.fields;
      var whitelist := if "whitelist" in f && f["whitelist"].JArr? then StringsOf(f["whitelist"].items) else None;
      var publicImages := if "publicImages" in f && f["publicImages"].JArr? then StringsOf(f["publicImages"].items) else None;
      var source := if "source" in f && f["source"].JStr? then SourceOf(f["source"].s) else None;
      if "publicAccess" in f && f["publicAccess"].JBool? && "ddosMode" in f && f["ddosMode"].JBool?
         && "ddosCacheTimeout" in f && f["ddosCacheTimeout"].JNum?
         && whitelist.Some? && publicImages.Some? && source.Some?
      then
        Some(Config(
          publicAccess := f["publicAccess"].b,
          whitelist := whitelist.value,
          adminPassword := OptionalString(f, "adminPassword"),
          fallbackPassword := OptionalString(f, "fallbackPassword"),
          source := source.value,
          ddosMode := f["ddosMode"].b,
          ddosCacheTimeout := f["ddosCacheTimeout"].n,
          publicImages := publicImages.value))
      else None
  }

  /** The serialized config loses nothing: every field, the passwords
      included, reads back from it. */
  lemma {:induction false} ConfigJsonRoundTrip(c: Config)
    ensures ConfigOfJson(ConfigJson(c)) == Some(c)
  {
    StringsOfJStrings(c.whitelist);
    StringsOfJStrings(c.publicImages);
  }
}

=== FILE: debug.dfy ===
/** The diagnostics endpoint (functions/api/debug.ts), which recomputes part
    of the access decision and reports it. */
module DebugEndpoint {
  import opened Wrappers
  import opened Strings
  import opened Http
  import opened ConfigStore
  import AccessControl

  const NoneShown := "(none)"
  const InvalidShown := "(invalid URL)"

  /** The `request` and `analysis` parts of the report. */
  datatype Analysis = Analysis(
    referer: string,
    refererHostname: string,
    requestHost: string,
    isSameHost: bool,
    isInWhitelist: bool,
    wouldBeAllowed: bool)

  /** The analysis block, for the given request host and `Referer` header. */
  function Analyze(config: Config, requestHost: string, refererHeader: Option<string>,
                   urlHost: AccessControl.UrlHost): (a: Analysis)
    ensures a.requestHost == requestHost
    ensures !Truthy(refererHeader) ==>
      a.referer == NoneShown && a.refererHostname == NoneShown && !a.isSameHost && !a.isInWhitelist
    ensures Truthy(refererHeader) && refererHeader.value != NoneShown && urlHost(refererHeader.value).None? ==>
      a.referer == refererHeader.value && a.refererHostname == InvalidShown && !a.isSameHost && !a.isInWhitelist
    ensures Truthy(refererHeader) && refererHeader.value != NoneShown && urlHost(refererHeader.value).Some? ==>
      var h := urlHost(refererHeader.value).value;
      && a.refererHostname == h
      && (a.isSameHost <==> h == requestHost)
      && (a.isInWhitelist <==> exists i :: 0 <= i < |config.whitelist| && AccessControl.DomainMatches(h, config.whitelist[i]))
    ensures Truthy(refererHeader) ==> a.referer == refererHeader.value
    // a literal `(none)` header reads as no referer at all
    ensures refererHeader == Some(NoneShown) ==>
      a.refererHostname == NoneShown && !a.isSameHost && !a.isInWhitelist
    ensures a.wouldBeAllowed <==> config.publicAccess || a.isSameHost || a.isInWhitelist
  {
    AccessControl.InWhitelistIffAll(config.whitelist);
    // `request.headers.get('Referer') || '(none)'`
    var referer := if Truthy(refererHeader) then refererHeader.value else NoneShown;
    var analysis := Inspect(config.whitelist, requestHost, referer, urlHost);
    analysis.(wouldBeAllowed := config.publicAccess || analysis.isSameHost || analysis.isInWhitelist)
  }

  /** The referer inspection, where an unparseable referer is caught and
      reported rather than raised. */
  function Inspect(whitelist: seq<string>, requestHost: string, referer: string,
                   urlHost: AccessControl.UrlHost): Analysis
  {
    if referer == NoneShown then
      Analysis(referer, NoneShown, requestHost, false, false, false)
    else
      match urlHost(referer)
      case None => Analysis(referer, InvalidShown, requestHost, false, false, false)
      case Some(h) => Analysis(referer, h, requestHost, h == requestHost, AccessControl.InWhitelist(h, whitelist), false)
  }

  /** The `config` part of the report: the six access-control fields and
      the source, never a password. */
  function ConfigView(config: Config): (j: Json)
    ensures j.JObj?
    ensures j.fields.Keys == {"source", "publicAccess", "whitelist", "ddosMode", "ddosCacheTimeout", "publicImages"}
    ensures j.fields["whitelist"] == JStrings(config.whitelist)
    ensures j.fields["publicImages"] == JStrings(config.publicImages)
    ensures j.fields["publicAccess"] == JBool(config.publicAccess)
    ensures j.fields["ddosMode"] == JBool(config.ddosMode)
    ensures j.fields["ddosCacheTimeout"] == JNum(config.ddosCacheTimeout)
    ensures j.fields["source"] == JStr(SourceName(config.source))
  {
    JObj(map[
      "source" := JStr(SourceName(config.source)),
      "publicAccess" := JBool(config.publicAccess),
      "whitelist" := JStrings(config.whitelist),
      "ddosMode" := JBool(config.ddosMode),
      "ddosCacheTimeout" := JNum(config.ddosCacheTimeout),
      "publicImages" := JStrings(config.publicImages)])
  }

  function AnalysisJson(a: Analysis): (j: Json)
    ensures j.JObj? && "wouldBeAllowed" in j.fields && j.fields["wouldBeAllowed"] == JBool(a.wouldBeAllowed)
  {
    JObj(map[
      "isSameHost" := JBool(a.isSameHost),
      "isInWhitelist" := JBool(a.isInWhitelist),
      "wouldBeAllowed" := JBool(a.wouldBeAllowed)])
  }

  function RequestJson(a: Analysis): Json {
    JObj(map[
      "referer" := JStr(a.referer),
      "refererHostname" := JStr(a.refererHostname),
      "requestHost" := JStr(a.requestHost)])
  }

  /** Which variables are defined, and whether a store is bound. */
  function EnvPresenceJson(env: Env): Json {
    JObj(map[
      "EO_PUBLIC_ACCESS" := JBool(env.publicAccessVar.Some?),
      "EO_WHITELIST" := JBool(env.whitelistVar.Some?),
      "EO_DDOS_MODE" := JBool(env.ddosModeVar.Some?),
      "EO_KV" := JBool(env.kv.Some?)])
  }

  /** `onRequest`: load the config, analyse the request, report as JSON with
      a CORS header. */
  function Handle(env: Env, cache: Cache, requestHost: string, refererHeader: Option<string>,
                  urlHost: AccessControl.UrlHost): (r: Handled)
    ensures r.cache == GetConfig(env, cache).cache
    ensures r.response.status == 200
    ensures "Access-Control-Allow-Origin" in r.response.headers && r.response.headers["Access-Control-Allow-Origin"] == "*"
    ensures r.response.body.JsonBody? && r.response.body.json.JObj?
    ensures var report := r.response.body.json.fields;
      && "config" in report && report["config"].JObj?
      && "adminPassword" !in report["config"].fields
      && "fallbackPassword" !in report["config"].fields
    ensures var loaded := GetConfig(env, cache);
      var a := Analyze(loaded.config, requestHost, refererHeader, urlHost);
      var report := r.response.body.json.fields;
      && report["config"] == ConfigView(loaded.config)
      && "analysis" in report && report["analysis"] == AnalysisJson(a)
      && "request" in report && report["request"] == RequestJson(a)
  {
    var loaded := GetConfig(env, cache);
    var a := Analyze(loaded.config, requestHost, refererHeader, urlHost);
    var headers := map[
      "Access-Control-Allow-Origin" := "*",
      "Content-Type" := "application/json; charset=utf-8"];
    Handled(Response(200, headers, JsonBody(Report(loaded.config, a, env))), loaded.cache)
  }

  /** The whole report object. */
  function Report(config: Config, a: Analysis, env: Env): (j: Json)
    ensures j.JObj? && "config" in j.fields && j.fields["config"] == ConfigView(config)
    ensures "analysis" in j.fields && j.fields["analysis"] == AnalysisJson(a)
    ensures "request" in j.fields && j.fields["request"] == RequestJson(a)
    ensures "envVarsPresent" in j.fields && j.fields["envVarsPresent"] == EnvPresenceJson(env)
  {
    JObj(map[
      "config" := ConfigView(config),
      "request" := RequestJson(a),
      "analysis" := AnalysisJson(a),
      "envVarsPresent" := EnvPresenceJson(env)])
  }

  /** The endpoint's verdict agrees with the middleware's decision for every
      non-admin path that is not a public image, DDoS mode included. (The
      literal header `(none)` is read as "no referer" here and as an
      unparseable URL there, which is why that string must not parse.) */
  lemma AgreesWithMiddleware(req: AccessControl.Request, config: Config, urlHost: AccessControl.UrlHost)
    requires !AccessControl.IsAdminPath(req.pathname)
    requires !AccessControl.PublicImageHit(req.pathname, config)
    requires urlHost(NoneShown).None?
    ensures Analyze(config, req.hostname, req.referer, urlHost).wouldBeAllowed <==>
      AccessControl.Decide(req, config, urlHost) == AccessControl.Allow
  {
    if Truthy(req.referer) && urlHost(req.referer.value).Some? {
      AccessControl.InWhitelistIff(urlHost(req.referer.value).value, config.whitelist);
    }
  }

  /** What the endpoint's response reports as `wouldBeAllowed` is the
      middleware's decision on the same request under the config the
      endpoint loaded. */
  lemma ReportedVerdictIsMiddlewares(env: Env, cache: Cache, req: AccessControl.Request,
                                     urlHost: AccessControl.UrlHost)
    requires !AccessControl.IsAdminPath(req.pathname)
    requires !AccessControl.PublicImageHit(req.pathname, GetConfig(env, cache).config)
    requires urlHost(NoneShown).None?
    ensures var report := Handle(env, cache, req.hostname, req.referer, urlHost).response.body.json.fields;
      && "analysis" in report && report["analysis"].JObj?
      && "wouldBeAllowed" in report["analysis"].fields
      && (report["analysis"].fields["wouldBeAllowed"] == JBool(true) <==>
            AccessControl.Decide(req, GetConfig(env, cache).config, urlHost) == AccessControl.Allow)
  {
    AgreesWithMiddleware(req, GetConfig(env, cache).config, urlHost);
  }

  /** The reported whitelist flag is the middleware's whitelist test. */
  lemma SameWhitelistTest(config: Config, requestHost: string, refererHeader: Option<string>,
                          urlHost: AccessControl.UrlHost)
    requires Truthy(refererHeader) && refererHeader.value != NoneShown
    requires urlHost(refererHeader.value).Some?
    ensures Analyze(config, requestHost, refererHeader, urlHost).isInWhitelist ==
      AccessControl.InWhitelist(urlHost(refererHeader.value).value, config.whitelist)
  {
    AccessControl.InWhitelistIff(urlHost(refererHeader.value).value, config.whitelist);
  }
}

=== FILE: http.dfy ===
/** Plain records for what the handlers read from and write to HTTP. */
module Http {
  import opened Wrappers

  /** A decoded JSON value, as produced for `JSON.stringify`. Object keys are
      unordered here; keys whose value is `undefined` are simply absent. */
  datatype Json =
    | JNull
    | JBool(b: bool)
    | JNum(n: int)
    | JStr(s: string)
    | JArr(items: seq<Json>)
    | JObj(fields: map<string, Json>)

  function JStrings(xs: seq<string>): (r: Json)
    ensures r.JArr? && |r.items| == |xs|
    ensures forall i :: 0 <= i < |xs| ==> r.items[i] == JStr(xs[i])
  {
    JArr(seq(|xs|, i requires 0 <= i < |xs| => JStr(xs[i])))
  }

  /** Reads an array of JSON strings back; `None` if an item is not a
      string. */
  function StringsOf(items: seq<Json>): (r: Option<seq<string>>)
    ensures r.Some? ==> |r.value| == |items|
    ensures r.Some? ==> forall i :: 0 <= i < |items| ==> items[i] == JStr(r.value[i])
  {
    if |items| == 0 then Some([])
    else match (items[0], StringsOf(items[1..]))
      case (JStr(x), Some(rest)) => Some([x] + rest)
      case _ => None
  }

  lemma {:induction false} StringsOfJStrings(xs: seq<string>)
    ensures StringsOf(JStrings(xs).items) == Some(xs)
  {
    if |xs| > 0 {
      StringsOfJStrings(xs[1..]);
      assert JStrings(xs).items[1..] == JStrings(xs[1..]).items;
      assert [xs[0]] + xs[1..] == xs;
    }
  }

  /** Response headers the handlers set explicitly, keyed by the name as the
      handlers spell it. `headers.set(k, v)` is `h[k := v]`. */
  type Headers = map<string, string>

  datatype Body =
    | NoBody
    | Text(text: string)
    | JsonBody(json: Json)
    /** A body streamed through unchanged (the next handler's, or the
        fetched image's). */
    | Stream

  datatype Response = Response(status: int, headers: Headers, body: Body)
}

=== FILE: manifest.dfy ===
/** The build-time manifest generator (scripts/generate-manifest.js): the
    image files of the two orientation directories, as URL paths. */
module ManifestBuilder {
  import opened Wrappers
  import opened Strings

  /** Image paths by orientation, in directory order. */
  datatype Manifest = Manifest(vertical: seq<string>, horizontal: seq<string>)

  const ImageExtensions: seq<string> := [".jpg", ".jpeg", ".png", ".gif", ".webp", ".avif"]
  const VerticalPrefix := "/images/vertical/"
  const HorizontalPrefix := "/images/horizontal/"

  /** `/\.(jpg|jpeg|png|gif|webp|avif)$/i.test(name)` */
  predicate IsImageFile(name: string) {
    exists i :: 0 <= i < |ImageExtensions| && EndsWithIgnoreCase(name, ImageExtensions[i])
  }

  /** The `filter` step: image files only, in their original order. */
  function KeepImages(files: seq<string>): (r: seq<string>)
    ensures |r| <= |files|
    ensures forall i :: 0 <= i < |r| ==> IsImageFile(r[i])
    ensures forall x :: x in r <==> x in files && IsImageFile(x)
  {
    if |files| == 0 then []
    else
      var rest := KeepImages(files[1..]);
      if IsImageFile(files[0]) then [files[0]] + rest else rest
  }

  /** Order is preserved: filtering distributes over concatenation. */
  lemma {:induction false} KeepImagesAppend(a: seq<string>, b: seq<string>)
    ensures KeepImages(a + b) == KeepImages(a) + KeepImages(b)
  {
    if |a| == 0 {
      assert a + b == b;
    } else {
      assert (a + b)[1..] == a[1..] + b;
      KeepImagesAppend(a[1..], b);
    }
  }

  /** Nothing is de-duplicated: an image file appears as often as in the
      directory listing. */
  lemma {:induction false} KeepImagesMultiplicity(files: seq<string>, x: string)
    ensures multiset(KeepImages(files))[x] == if IsImageFile(x) then multiset(files)[x] else 0
  {
    if |files| > 0 {
      KeepImagesMultiplicity(files[1..], x);
      assert files == [files[0]] + files[1..];
      assert multiset(files) == multiset([files[0]]) + multiset(files[1..]);
    }
  }

  /** `getImages(dir)`: `None` is a directory that does not exist. */
  function GetImages(dir: Option<seq<string>>): (r: seq<string>)
    ensures dir.None? ==> r == []
    ensures dir.Some? ==> r == KeepImages(dir.value)
  {
    match dir
    case None => []
    case Some(files) => KeepImages(files)
  }

  /** `names.map(f => prefix + f)` */
  function Prefixed(prefix: string, names: seq<string>): (r: seq<string>)
    ensures |r| == |names|
    ensures forall i :: 0 <= i < |r| ==> r[i] == prefix + names[i]
  {
    seq(|names|, i requires 0 <= i < |names| => prefix + names[i])
  }

  /** The manifest written by the script. */
  function Build(verticalDir: Option<seq<string>>, horizontalDir: Option<seq<string>>): (m: Manifest)
    ensures |m.vertical| <= (if verticalDir.Some? then |verticalDir.value| else 0)
    ensures |m.horizontal| <= (if horizontalDir.Some? then |horizontalDir.value| else 0)
    ensures |m.vertical| == |GetImages(verticalDir)|
    ensures forall i :: 0 <= i < |m.vertical| ==> m.vertical[i] == VerticalPrefix + GetImages(verticalDir)[i]
    ensures |m.horizontal| == |GetImages(horizontalDir)|
    ensures forall i :: 0 <= i < |m.horizontal| ==> m.horizontal[i] == HorizontalPrefix + GetImages(horizontalDir)[i]
  {
    Manifest(
      vertical := Prefixed(VerticalPrefix, GetImages(verticalDir)),
      horizontal := Prefixed(HorizontalPrefix, GetImages(horizontalDir)))
  }

  /** Every image in a directory's listing appears in the manifest under
      that directory's prefix, and nothing else does. */
  lemma ListedImagesAreBuilt(verticalDir: Option<seq<string>>, horizontalDir: Option<seq<string>>, name: string)
    ensures var m := Build(verticalDir, horizontalDir);
      && (VerticalPrefix + name in m.vertical <==>
            verticalDir.Some? && name in verticalDir.value && IsImageFile(name))
      && (HorizontalPrefix + name in m.horizontal <==>
            horizontalDir.Some? && name in horizontalDir.value && IsImageFile(name))
  {
    PrefixedMember(VerticalPrefix, GetImages(verticalDir), name);
    PrefixedMember(HorizontalPrefix, GetImages(horizontalDir), name);
  }

  /** A prefixed name is in the prefixed list iff the name is in the list. */
  lemma PrefixedMember(prefix: string, names: seq<string>, name: string)
    ensures prefix + name in Prefixed(prefix, names) <==> name in names
  {
    var r := Prefixed(prefix, names);
    if prefix + name in r {
      var i :| 0 <= i < |r| && r[i] == prefix + name;
      assert names[i] == (prefix + name)[|prefix|..];
      assert (prefix + name)[|prefix|..] == name;
    }
    if name in names {
      var i :| 0 <= i < |names| && names[i] == name;
      assert r[i] == prefix + name;
    }
  }

  lemma FoldCaseAppend(a: string, b: string)
    ensures FoldCase(a + b) == FoldCase(a) + FoldCase(b)
  {
  }

  /** A prefix in front of a file name keeps its extension. */
  lemma PrefixKeepsImageFile(prefix: string, name: string)
    requires IsImageFile(name)
    ensures IsImageFile(prefix + name)
  {
    var i :| 0 <= i < |ImageExtensions| && EndsWithIgnoreCase(name, ImageExtensions[i]);
    var e := FoldCase(ImageExtensions[i]);
    FoldCaseAppend(prefix, name);
    var whole := FoldCase(prefix + name);
    assert whole[|whole| - |e|..] == FoldCase(name)[|FoldCase(name)| - |e|..];
    assert EndsWithIgnoreCase(prefix + name, ImageExtensions[i]);
  }

  /** Every manifest entry is an image path under its orientation's
      directory. */
  lemma BuiltEntriesAreImagePaths(verticalDir: Option<seq<string>>, horizontalDir: Option<seq<string>>)
    ensures var m := Build(verticalDir, horizontalDir);
      && (forall i :: 0 <= i < |m.vertical| ==> StartsWith(m.vertical[i], VerticalPrefix) && IsImageFile(m.vertical[i]))
      && (forall i :: 0 <= i < |m.horizontal| ==> StartsWith(m.horizontal[i], HorizontalPrefix) && IsImageFile(m.horizontal[i]))
  {
    var m := Build(verticalDir, horizontalDir);
    var vs := GetImages(verticalDir);
    var hs := GetImages(horizontalDir);
    forall i | 0 <= i < |m.vertical|
      ensures StartsWith(m.vertical[i], VerticalPrefix) && IsImageFile(m.vertical[i])
    {
      PrefixKeepsImageFile(VerticalPrefix, vs[i]);
      assert (VerticalPrefix + vs[i])[..|VerticalPrefix|] == VerticalPrefix;
    }
    forall i | 0 <= i < |m.horizontal|
      ensures StartsWith(m.horizontal[i], HorizontalPrefix) && IsImageFile(m.horizontal[i])
    {
      PrefixKeepsImageFile(HorizontalPrefix, hs[i]);
      assert (HorizontalPrefix + hs[i])[..|HorizontalPrefix|] == HorizontalPrefix;
    }
  }

  /** Upper-case extensions are kept, look-alikes are not. */
  lemma ExtensionExamples()
    ensures IsImageFile("cat.JPG")
    ensures !IsImageFile("notes.txt")
  {
    assert EndsWithIgnoreCase("cat.JPG", ImageExtensions[0]) by {
      assert FoldCase("cat.JPG")[3..] == ".JPG";
      assert FoldCase(".jpg") == ".JPG";
    }
    var f := FoldCase("notes.txt");
    assert f[|f| - 1] == 'T';
    forall i | 0 <= i < |ImageExtensions| ensures !EndsWithIgnoreCase("notes.txt", ImageExtensions[i]) {
      var e := FoldCase(ImageExtensions[i]);
      assert e[|e| - 1] != 'T';
    }
  }
}

=== FILE: middleware.dfy ===
/** The referer-based access decision applied to every request
    (functions/_middleware.ts). */
module AccessControl {
  import opened Wrappers
  import opened Strings
  import opened Http
  import opened ConfigStore

  /** What the middleware reads from a request: the URL's path and host
      name, and the `Referer` header (`None` when absent). */
  datatype Request = Request(pathname: string, hostname: string, referer: Option<string>)

  /** `new URL(s).hostname`, or `None` where the constructor throws. The URL
      parser itself is not part of this model. */
  type UrlHost = string -> Option<string>

  datatype DenyReason = NoReferer | NotAllowed

  /** Passed to the next handler untouched, passed on with a CORS header, or
      refused with 403. */
  datatype Verdict = Bypass | Allow | Deny(reason: DenyReason)

  const CorsHeader := "Access-Control-Allow-Origin"
  const NoRefererMessage := "Access Denied (DDoS Protection: No Referer)"
  const ProtectedMessage := "Access Denied: Protected Resource"

  predicate IsAdminPath(pathname: string) {
    StartsWith(pathname, "/api/admin") || StartsWith(pathname, "/admin")
  }

  /** `pathname.split('/').pop()`: the text after the last `/`. */
  function Filename(pathname: string): (f: string)
    ensures '/' !in f && EndsWith(pathname, f)
    ensures |f| == |pathname| || pathname[|pathname| - |f| - 1] == '/'
  {
    var parts := Split(pathname, '/');
    SplitLast(pathname, '/');
    parts[|parts| - 1]
  }

  /** Whitelist entry `domain` admits referer host `host`: the same name, or
      a sub-domain of it (suffix match on a dot boundary). */
  predicate DomainMatches(host: string, domain: string) {
    host == domain || EndsWith(host, "." + domain)
  }

  /** `whitelist.some(domain => DomainMatches(host, domain))` */
  predicate InWhitelist(host: string, whitelist: seq<string>) {
    |whitelist| > 0 && (DomainMatches(host, whitelist[0]) || InWhitelist(host, whitelist[1..]))
  }

  predicate PublicImageHit(pathname: string, config: Config) {
    var f := Filename(pathname);
    f != "" && f in config.publicImages
  }

  predicate DdosBlocks(referer: Option<string>, config: Config) {
    config.ddosMode && !Truthy(referer) && !config.publicAccess
  }

  /** Rule B: the referer is present, parses, and names this host or a
      whitelisted domain. */
  predicate RefererAllows(referer: Option<string>, hostname: string, whitelist: seq<string>, urlHost: UrlHost) {
    Truthy(referer) &&
    match urlHost(referer.value)
    case None => false
    case Some(h) => h == hostname || InWhitelist(h, whitelist)
  }

  /** The middleware's decision, rule by rule in the source's priority order. */
  function Decide(req: Request, config: Config, urlHost: UrlHost): (v: Verdict)
    ensures v == Bypass <==> IsAdminPath(req.pathname)
    ensures v == Deny(NoReferer) <==>
      !IsAdminPath(req.pathname) && !PublicImageHit(req.pathname, config) && DdosBlocks(req.referer, config)
    ensures v == Allow <==>
      && !IsAdminPath(req.pathname)
      && (|| PublicImageHit(req.pathname, config)
          || (&& !DdosBlocks(req.referer, config)
              && (config.publicAccess || RefererAllows(req.referer, req.hostname, config.whitelist, urlHost))))
  {
    if IsAdminPath(req.pathname) then Bypass
    else if PublicImageHit(req.pathname, config) then Allow
    else if DdosBlocks(req.referer, config) then Deny(NoReferer)
    else
      var isAllowed := config.publicAccess || RefererAllows(req.referer, req.hostname, config.whitelist, urlHost);
      if isAllowed then Allow else Deny(NotAllowed)
  }

  /** The response the middleware returns, given the one the next handler
      would produce. */
  function Respond(v: Verdict, downstream: Response): (r: Response)
    ensures v.Bypass? ==> r == downstream
    ensures v.Allow? ==> r == downstream.(headers := downstream.headers[CorsHeader := "*"])
    ensures v.Deny? ==> r.status == 403 && CorsHeader !in r.headers && r.body.Text?
    ensures v == Deny(NoReferer) ==> r == Response(403, map[], Text(NoRefererMessage))
    ensures v == Deny(NotAllowed) ==> r == Response(403, map[], Text(ProtectedMessage))
  {
    match v
    case Bypass => downstream
    case Allow => downstream.(headers := downstream.headers[CorsHeader := "*"])
    case Deny(NoReferer) => Response(403, map[], Text(NoRefererMessage))
    case Deny(NotAllowed) => Response(403, map[], Text(ProtectedMessage))
  }

  /** `onRequest`: admin paths go straight to the next handler without
      loading the config; every other request loads it (through the cache)
      and is decided. */
  function Handle(env: Env, cache: Cache, req: Request, downstream: Response, urlHost: UrlHost): (r: Handled)
    ensures IsAdminPath(req.pathname) ==> r == Handled(downstream, cache)
    ensures !IsAdminPath(req.pathname) ==>
      var loaded := GetConfig(env, cache);
      && r.cache == loaded.cache
      && (r.response.headers == downstream.headers[CorsHeader := "*"] <==> Decide(req, loaded.config, urlHost) == Allow)
      && (Decide(req, loaded.config, urlHost).Deny? ==>
            r.response.status == 403 && CorsHeader !in r.response.headers)
      && (Decide(req, loaded.config, urlHost) == Allow ==>
            r.response.status == downstream.status && r.response.body == downstream.body)
      && (Decide(req, loaded.config, urlHost) == Deny(NoReferer) ==>
            r.response.body == Text(NoRefererMessage))
      && (Decide(req, loaded.config, urlHost) == Deny(NotAllowed) ==>
            r.response.body == Text(ProtectedMessage))
  {
    if IsAdminPath(req.pathname) then Handled(downstream, cache)
    else
      var loaded := GetConfig(env, cache);
      var v := Decide(req, loaded.config, urlHost);
      // a denial never carries the CORS header, so its headers differ from
      // the allowed ones
      assert CorsHeader in downstream.headers[CorsHeader := "*"];
      Handled(Respond(v, downstream), loaded.cache)
  }

  // ---------------------------------------------------------------------------
  // Properties
  // ---------------------------------------------------------------------------

  /** An admin path is decided without looking at the config at all; this
      includes paths such as `/administrator`. */
  lemma AdminPathIgnoresConfig(req: Request, c1: Config, c2: Config, urlHost: UrlHost)
    requires StartsWith(req.pathname, "/admin") || StartsWith(req.pathname, "/api/admin")
    ensures Decide(req, c1, urlHost) == Decide(req, c2, urlHost) == Bypass
  {
  }

  lemma AdministratorIsBypassed(hostname: string, referer: Option<string>, config: Config, urlHost: UrlHost)
    ensures Decide(Request("/administrator", hostname, referer), config, urlHost) == Bypass
  {
    assert "/administrator"[..|"/admin"|] == "/admin";
  }

  /** A public image is served even in DDoS mode without a referer. */
  lemma PublicImageBeatsDdos(req: Request, config: Config, urlHost: UrlHost)
    requires !IsAdminPath(req.pathname)
    requires Filename(req.pathname) != "" && Filename(req.pathname) in config.publicImages
    requires config.ddosMode && req.referer.None?
    ensures Decide(req, config, urlHost) == Allow
  {
  }

  /** Which request gets which 403, read off the response rather than the
      verdict: the "No Referer" refusal exactly when DDoS mode blocks a
      non-admin, non-public-image request, the protected-resource refusal
      exactly when no rule admits one. On an admin path the response is the
      next handler's, whatever it is. */
  lemma DenialResponses(env: Env, cache: Cache, req: Request, downstream: Response, urlHost: UrlHost)
    ensures var r := Handle(env, cache, req, downstream, urlHost).response;
      var c := GetConfig(env, cache).config;
      && (r == Response(403, map[], Text(NoRefererMessage)) <==>
            || (IsAdminPath(req.pathname) && downstream == Response(403, map[], Text(NoRefererMessage)))
            || (&& !IsAdminPath(req.pathname) && !PublicImageHit(req.pathname, c)
                && DdosBlocks(req.referer, c)))
      && (r == Response(403, map[], Text(ProtectedMessage)) <==>
            || (IsAdminPath(req.pathname) && downstream == Response(403, map[], Text(ProtectedMessage)))
            || (&& !IsAdminPath(req.pathname) && !PublicImageHit(req.pathname, c)
                && !DdosBlocks(req.referer, c) && !c.publicAccess
                && !RefererAllows(req.referer, req.hostname, c.whitelist, urlHost)))
  {
    var c := GetConfig(env, cache).config;
    var r := Handle(env, cache, req, downstream, urlHost).response;
    if !IsAdminPath(req.pathname) && Decide(req, c, urlHost) == Allow {
      // an allowed response carries the CORS header, which no refusal has
      assert CorsHeader in r.headers;
    }
  }

  /** Public access admits every non-admin request. */
  lemma PublicAccessAllowsAll(req: Request, config: Config, urlHost: UrlHost)
    requires config.publicAccess && !IsAdminPath(req.pathname)
    ensures Decide(req, config, urlHost) == Allow
  {
  }

  /** A referer that names the request's own host is allowed. */
  lemma SelfRefererAllowed(req: Request, config: Config, urlHost: UrlHost)
    requires !IsAdminPath(req.pathname) && Truthy(req.referer)
    requires urlHost(req.referer.value) == Some(req.hostname)
    ensures Decide(req, config, urlHost) == Allow
  {
  }

  /** A referer that is present but does not parse never raises and never
      triggers the DDoS block; it is refused unless public access (or a
      public image) lets it through. */
  lemma UnparseableReferer(req: Request, config: Config, urlHost: UrlHost)
    requires !IsAdminPath(req.pathname) && Truthy(req.referer)
    requires urlHost(req.referer.value).None?
    ensures Decide(req, config, urlHost) != Deny(NoReferer)
    ensures Decide(req, config, urlHost) == Allow <==>
      config.publicAccess || PublicImageHit(req.pathname, config)
    ensures Decide(req, config, urlHost) != Allow ==> Decide(req, config, urlHost) == Deny(NotAllowed)
  {
  }

  lemma {:induction false} InWhitelistIff(host: string, whitelist: seq<string>)
    ensures InWhitelist(host, whitelist) <==> exists i :: 0 <= i < |whitelist| && DomainMatches(host, whitelist[i])
  {
    if |whitelist| > 0 {
      InWhitelistIff(host, whitelist[1..]);
      if InWhitelist(host, whitelist[1..]) {
        var i :| 0 <= i < |whitelist[1..]| && DomainMatches(host, whitelist[1..][i]);
        assert DomainMatches(host, whitelist[i + 1]);
      }
      if exists i :: 0 <= i < |whitelist| && DomainMatches(host, whitelist[i]) {
        var i :| 0 <= i < |whitelist| && DomainMatches(host, whitelist[i]);
        if i > 0 { assert DomainMatches(host, whitelist[1..][i - 1]); }
      }
    }
  }

  lemma InWhitelistIffAll(whitelist: seq<string>)
    ensures forall host :: InWhitelist(host, whitelist) <==>
      exists i :: 0 <= i < |whitelist| && DomainMatches(host, whitelist[i])
  {
    forall host ensures InWhitelist(host, whitelist) <==>
      exists i :: 0 <= i < |whitelist| && DomainMatches(host, whitelist[i])
    {
      InWhitelistIff(host, whitelist);
    }
  }

  /** The dot boundary: an entry matches exactly itself and the names that
      extend it by a `.`-separated label prefix. */
  lemma DomainMatchesIff(host: string, domain: string)
    ensures DomainMatches(host, domain) <==> host == domain || exists p :: host == p + "." + domain
  {
    if EndsWith(host, "." + domain) {
      var p := host[..|host| - |domain| - 1];
      assert host == p + "." + domain;
    }
    if exists p :: host == p + "." + domain {
      var p :| host == p + "." + domain;
      assert host[|host| - |"." + domain|..] == "." + domain;
    }
  }

  lemma SuffixWithoutDotRejected()
    ensures !DomainMatches("evilexample.com", "example.com")
    ensures DomainMatches("sub.example.com", "example.com")
  {
    var h := "evilexample.com";
    assert h[|h| - 12] == 'l';
    assert ("." + "example.com")[0] == '.';
    var s := "sub.example.com";
    assert s[|s| - 12..] == ".example.com";
  }

  /** Adding whitelist entries never turns an allow into a deny. */
  lemma WhitelistMonotone(req: Request, config: Config, more: seq<string>, urlHost: UrlHost)
    requires forall i :: 0 <= i < |config.whitelist| ==> config.whitelist[i] in more
    ensures Decide(req, config, urlHost) == Allow ==> Decide(req, config.(whitelist := more), urlHost) == Allow
  {
    if Truthy(req.referer) && urlHost(req.referer.value).Some? {
      var h := urlHost(req.referer.value).value;
      InWhitelistIff(h, config.whitelist);
      InWhitelistIff(h, more);
      if InWhitelist(h, config.whitelist) {
        var i :| 0 <= i < |config.whitelist| && DomainMatches(h, config.whitelist[i]);
        var j :| 0 <= j < |more| && more[j] == config.whitelist[i];
        assert DomainMatches(h, more[j]);
      }
    }
  }

  /** Adding public images never turns an allow into a deny. */
  lemma PublicImagesMonotone(req: Request, config: Config, more: seq<string>, urlHost: UrlHost)
    requires forall i :: 0 <= i < |config.publicImages| ==> config.publicImages[i] in more
    ensures Decide(req, config, urlHost) == Allow ==> Decide(req, config.(publicImages := more), urlHost) == Allow
  {
  }

  /** Turning public access on never turns an allow into a deny. */
  lemma PublicAccessMonotone(req: Request, config: Config, urlHost: UrlHost)
    ensures Decide(req, config, urlHost) == Allow ==> Decide(req, config.(publicAccess := true), urlHost) == Allow
  {
  }

  /** Turning DDoS mode on never turns a deny into an allow. */
  lemma DdosModeMonotone(req: Request, config: Config, urlHost: UrlHost)
    ensures Decide(req, config, urlHost).Deny? ==> Decide(req, config.(ddosMode := true), urlHost).Deny?
  {
  }
}

=== FILE: random.dfy ===
/** The random-image endpoint (functions/random.ts): pick an image of the
    requested or inferred orientation, then redirect to it or proxy it. */
module RandomImage {
  import opened Wrappers
  import opened Strings
  import opened Http
  import opened ConfigStore
  import opened ManifestBuilder

  datatype Orientation = Vertical | Horizontal

  function OrientationName(o: Orientation): string {
    match o
    case Vertical => "vertical"
    case Horizontal => "horizontal"
  }

  /** `manifest[targetType] || []` */
  function Images(m: Manifest, o: Orientation): seq<string> {
    match o
    case Vertical => m.vertical
    case Horizontal => m.horizontal
  }

  /** The alternatives of `/Android|webOS|iPhone|iPad|iPod|BlackBerry|IEMobile|Opera Mini/i`. */
  const MobileTokens: seq<string> :=
    ["Android", "webOS", "iPhone", "iPad", "iPod", "BlackBerry", "IEMobile", "Opera Mini"]

  /** The regular expression test: some alternative occurs in the user agent,
      letters compared case-insensitively. */
  predicate IsMobile(userAgent: string) {
    exists i :: 0 <= i < |MobileTokens| && ContainsIgnoreCase(userAgent, MobileTokens[i])
  }

  /** The query and headers the endpoint reads; `None` is an absent
      parameter or header. */
  datatype Query = Query(
    typeParam: Option<string>,
    redirectParam: Option<string>,
    userAgent: Option<string>,
    accept: Option<string>)

  /** `?type=v` / `?type=h`, else the user-agent test. */
  function ResolveOrientation(typeParam: Option<string>, userAgent: Option<string>): (o: Orientation)
    ensures typeParam == Some("v") ==> o == Vertical
    ensures typeParam == Some("h") ==> o == Horizontal
    ensures typeParam != Some("v") && typeParam != Some("h") ==>
      (o == Vertical <==> IsMobile(userAgent.GetOr("")))
  {
    if typeParam == Some("v") then Vertical
    else if typeParam == Some("h") then Horizontal
    else if IsMobile(userAgent.GetOr("")) then Vertical
    else Horizontal
  }

  /** `Math.floor(r * n)` for the `r` that `Math.random()` returned. */
  function PickIndex(n: nat, r: real): (i: nat)
    requires n > 0 && 0.0 <= r < 1.0
    ensures i < n
  {
    assert r * (n as real) < n as real by {
      assert (1.0 - r) * (n as real) > 0.0;
    }
    (r * (n as real)).Floor
  }

  datatype Mode = Redirect | Proxy

  /** `?redirect=true` / `?redirect=false`, else redirect unless the client
      navigates (its `Accept` header mentions `text/html`). */
  function ChooseMode(redirectParam: Option<string>, accept: Option<string>): (m: Mode)
    ensures redirectParam == Some("true") ==> m == Redirect
    ensures redirectParam == Some("false") ==> m == Proxy
    ensures redirectParam != Some("true") && redirectParam != Some("false") ==>
      (m == Proxy <==> exists j :: OccursAt(accept.GetOr(""), "text/html", j))
  {
    ContainsIff(accept.GetOr(""), "text/html");
    if redirectParam == Some("true") then Redirect
    else if redirectParam == Some("false") then Proxy
    else if Contains(accept.GetOr(""), "text/html") then Proxy
    else Redirect
  }

  const NoStore := "no-store, no-cache, must-revalidate, proxy-revalidate"

  function EdgeCacheControl(timeout: int): string {
    "public, s-maxage=" + IntToString(timeout) + ", max-age=" + IntToString(timeout)
  }

  /** The cache headers, which depend only on DDoS mode and its timeout. */
  function CacheHeaders(config: Config): (h: Headers)
    ensures h.Keys == {"Cache-Control", "X-DDoS-Protection"}
    ensures config.ddosMode ==>
      h["Cache-Control"] == EdgeCacheControl(config.ddosCacheTimeout) && h["X-DDoS-Protection"] == "Active"
    ensures !config.ddosMode ==>
      h["Cache-Control"] == NoStore && h["X-DDoS-Protection"] == "Inactive"
  {
    if config.ddosMode then
      map["Cache-Control" := EdgeCacheControl(config.ddosCacheTimeout), "X-DDoS-Protection" := "Active"]
    else
      map["Cache-Control" := NoStore, "X-DDoS-Protection" := "Inactive"]
  }

  /** In DDoS mode the cache lifetime in the header reads back as exactly the
      configured timeout, for both `s-maxage` and `max-age`. */
  lemma EdgeCacheControlCarriesTimeout(config: Config)
    requires config.ddosMode
    ensures exists t ::
      && CacheHeaders(config)["Cache-Control"] == "public, s-maxage=" + t + ", max-age=" + t
      && ParseInt(t) == Some(config.ddosCacheTimeout)
  {
    ParseIntOfIntToString(config.ddosCacheTimeout);
    var t := IntToString(config.ddosCacheTimeout);
    assert CacheHeaders(config)["Cache-Control"] == "public, s-maxage=" + t + ", max-age=" + t;
  }

  /** What fetching the image produced: an exception, or a response with
      its headers (the status is not looked at). */
  datatype Fetch = FetchFailed | Fetched(status: int, headers: Headers)

  /** Copy `name` from the upstream headers when it is present and non-empty. */
  function Forward(h: Headers, upstream: Headers, name: string): (r: Headers)
    ensures name in upstream && upstream[name] != "" ==> r == h[name := upstream[name]]
    ensures !(name in upstream && upstream[name] != "") ==> r == h
  {
    if name in upstream && upstream[name] != "" then h[name := upstream[name]] else h
  }

  /** The 404 body, which echoes the orientation tried and the whole manifest. */
  function NotFoundJson(o: Orientation, m: Manifest): Json {
    JObj(map[
      "error" := JStr("No images found"),
      "targetType" := JStr(OrientationName(o)),
      "manifestKeys" := JStrings(["vertical", "horizontal"]),
      "manifest" := JObj(map["vertical" := JStrings(m.vertical), "horizontal" := JStrings(m.horizontal)])])
  }

  /** `onRequest` once the config is loaded. `r` is the value of
      `Math.random()`, `resolve` is `new URL(path, url.origin).toString()`,
      and `upstream` is what fetching the resolved URL produces (used only
      when proxying). */
  function Handle(q: Query, config: Config, manifest: Manifest, r: real,
                  resolve: string -> string, upstream: Fetch): (resp: Response)
    requires 0.0 <= r < 1.0
    ensures var o := ResolveOrientation(q.typeParam, q.userAgent);
      var images := Images(manifest, o);
      && (|images| == 0 ==>
            && resp.status == 404
            && resp.headers == map["Content-Type" := "application/json"]
            && resp.body.JsonBody? && resp.body.json.JObj?
            && "targetType" in resp.body.json.fields
            && resp.body.json.fields["targetType"] == JStr(OrientationName(o)))
      && (|images| > 0 ==>
            var target := resolve(images[PickIndex(|images|, r)]);
            var mode := ChooseMode(q.redirectParam, q.accept);
            && (mode == Redirect ==>
                  resp == Response(302, CacheHeaders(config)["Location" := target], NoBody))
            && (mode == Proxy && upstream.FetchFailed? ==>
                  resp == Response(502, map[], Text("Failed to fetch image")))
            && (mode == Proxy && upstream.Fetched? ==>
                  && resp.status == 200 && resp.body == Stream
                  && (forall k :: k in resp.headers ==> k in CacheHeaders(config) || k == "Content-Type" || k == "ETag")
                  && (forall k :: k in CacheHeaders(config) ==> k in resp.headers && resp.headers[k] == CacheHeaders(config)[k])
                  && ("Content-Type" in resp.headers <==> "Content-Type" in upstream.headers && upstream.headers["Content-Type"] != "")
                  && ("ETag" in resp.headers <==> "ETag" in upstream.headers && upstream.headers["ETag"] != "")
                  && ("Content-Type" in resp.headers ==> resp.headers["Content-Type"] == upstream.headers["Content-Type"])
                  && ("ETag" in resp.headers ==> resp.headers["ETag"] == upstream.headers["ETag"])))
  {
    var o := ResolveOrientation(q.typeParam, q.userAgent);
    var images := Images(manifest, o);
    if |images| == 0 then
      Response(404, map["Content-Type" := "application/json"], JsonBody(NotFoundJson(o, manifest)))
    else
      var target := resolve(images[PickIndex(|images|, r)]);
      var headers := CacheHeaders(config);
      match ChooseMode(q.redirectParam, q.accept)
      case Redirect => Response(302, headers["Location" := target], NoBody)
      case Proxy =>
        match upstream
        case FetchFailed => Response(502, map[], Text("Failed to fetch image"))
        case Fetched(_, up) =>
          Response(200, Forward(Forward(headers, up, "Content-Type"), up, "ETag"), Stream)
  }

  /** `onRequest` as a whole: the config comes through `getConfig` and its
      cache, then the request is answered with it. */
  function Serve(env: Env, cache: Cache, q: Query, manifest: Manifest, r: real,
                 resolve: string -> string, upstream: Fetch): (h: Handled)
    requires 0.0 <= r < 1.0
    ensures h.cache == GetConfig(env, cache).cache
    ensures h.response == Handle(q, GetConfig(env, cache).config, manifest, r, resolve, upstream)
    // with no store bound, a cached config is used as is and stays cached
    ensures env.kv.None? && cache.Cached? ==>
      h == Handled(Handle(q, cache.config, manifest, r, resolve, upstream), cache)
    // the first request without a store parses the environment and caches it
    ensures env.kv.None? && cache.Empty? ==>
      h == Handled(Handle(q, FromEnv(env), manifest, r, resolve, upstream), Cached(FromEnv(env)))
  {
    var loaded := GetConfig(env, cache);
    Handled(Handle(q, loaded.config, manifest, r, resolve, upstream), loaded.cache)
  }

  /** The image served is always one of the resolved orientation's images. */
  lemma ChosenImageIsListed(q: Query, manifest: Manifest, r: real)
    requires 0.0 <= r < 1.0
    requires |Images(manifest, ResolveOrientation(q.typeParam, q.userAgent))| > 0
    ensures var images := Images(manifest, ResolveOrientation(q.typeParam, q.userAgent));
      images[PickIndex(|images|, r)] in images
  {
  }

  /** With nothing to choose from, the random value, the origin and the
      upstream play no part: no index is taken and nothing is fetched. */
  lemma EmptyListTakesNoIndex(q: Query, config: Config, manifest: Manifest, r1: real, r2: real,
                              resolve1: string -> string, resolve2: string -> string, up1: Fetch, up2: Fetch)
    requires 0.0 <= r1 < 1.0 && 0.0 <= r2 < 1.0
    requires |Images(manifest, ResolveOrientation(q.typeParam, q.userAgent))| == 0
    ensures Handle(q, config, manifest, r1, resolve1, up1) == Handle(q, config, manifest, r2, resolve2, up2)
  {
  }

  /** The upstream status is never passed on: a proxied image is 200 even
      when the fetch returned an error page. */
  lemma ProxyIgnoresUpstreamStatus(q: Query, config: Config, manifest: Manifest, r: real,
                                   resolve: string -> string, headers: Headers, s1: int, s2: int)
    requires 0.0 <= r < 1.0
    requires ChooseMode(q.redirectParam, q.accept) == Proxy
    requires |Images(manifest, ResolveOrientation(q.typeParam, q.userAgent))| > 0
    ensures Handle(q, config, manifest, r, resolve, Fetched(s1, headers)) ==
            Handle(q, config, manifest, r, resolve, Fetched(s2, headers))
    ensures Handle(q, config, manifest, r, resolve, Fetched(s1, headers)).status == 200
  {
  }

  /** A picked image from a generated manifest lies in the directory of the
      orientation that was resolved. */
  lemma ChosenImageFromBuiltManifest(q: Query, verticalDir: Option<seq<string>>,
                                     horizontalDir: Option<seq<string>>, r: real)
    requires 0.0 <= r < 1.0
    requires var o := ResolveOrientation(q.typeParam, q.userAgent);
      |Images(Build(verticalDir, horizontalDir), o)| > 0
    ensures var o := ResolveOrientation(q.typeParam, q.userAgent);
      var images := Images(Build(verticalDir, horizontalDir), o);
      var chosen := images[PickIndex(|images|, r)];
      && StartsWith(chosen, if o == Vertical then VerticalPrefix else HorizontalPrefix)
      && IsImageFile(chosen)
  {
    BuiltEntriesAreImagePaths(verticalDir, horizontalDir);
  }

  /** Example user agents: an upper-cased token still counts as mobile. */
  lemma MobileExamples()
    ensures ResolveOrientation(None, Some("ANDROID")) == Vertical
    ensures ResolveOrientation(Some("h"), Some("iPhone")) == Horizontal
    ensures ResolveOrientation(Some("x"), None) == Horizontal
  {
    assert StartsWith(FoldCase("ANDROID"), FoldCase(MobileTokens[0]));
    assert ContainsIgnoreCase("ANDROID", MobileTokens[0]);
    forall i | 0 <= i < |MobileTokens| ensures !ContainsIgnoreCase("", MobileTokens[i]) {
      assert |FoldCase(MobileTokens[i])| > 0;
    }
  }
}

=== FILE: strings.dfy ===
/** String operations of the JavaScript runtime that the handlers rely on,
    stated over `seq<char>`. */
module Strings {
  import opened Wrappers

  /** JavaScript truthiness of an optional string (a header or variable that
      may be missing). */
  predicate Truthy(v: Option<string>) {
    v.Some? && v.value != ""
  }

  // ---------------------------------------------------------------------------
  // Prefixes, suffixes and occurrences
  // ---------------------------------------------------------------------------

  /** `s.startsWith(p)` */
  predicate StartsWith(s: string, p: string) {
    |p| <= |s| && s[..|p|] == p
  }

  /** `s.endsWith(p)` */
  predicate EndsWith(s: string, p: string) {
    |p| <= |s| && s[|s| - |p|..] == p
  }

  /** `t` occurs in `s` starting at position `j`. */
  predicate OccursAt(s: string, t: string, j: int) {
    0 <= j && j + |t| <= |s| && s[j..j + |t|] == t
  }

  lemma OccursShift(s: string, t: string)
    requires |s| > 0
    ensures forall j :: 1 <= j ==> (OccursAt(s, t, j) <==> OccursAt(s[1..], t, j - 1))
  {
    forall j | 1 <= j
      ensures OccursAt(s, t, j) <==> OccursAt(s[1..], t, j - 1)
    {
      if j + |t| <= |s| {
        assert s[1..][j - 1..j - 1 + |t|] == s[j..j + |t|];
      }
    }
  }

  /** `s.indexOf(t)`, with `None` for -1: the position of the FIRST occurrence. */
  function IndexOf(s: string, t: string): (r: Option<nat>)
    ensures r.Some? ==> OccursAt(s, t, r.value)
    ensures r.Some? ==> forall j :: 0 <= j < r.value ==> !OccursAt(s, t, j)
    ensures r.None? ==> forall j :: !OccursAt(s, t, j)
  {
    if StartsWith(s, t) then
      assert s[0..|t|] == s[..|t|];
      Some(0)
    else if |s| == 0 then
      None
    else
      OccursShift(s, t);
      assert !OccursAt(s, t, 0) by {
        if |t| <= |s| { assert s[0..|t|] == s[..|t|]; }
      }
      match IndexOf(s[1..], t)
      case None => None
      case Some(k) => Some(k + 1)
  }

  /** `s.includes(t)` */
  predicate Contains(s: string, t: string) {
    IndexOf(s, t).Some?
  }

  lemma ContainsIff(s: string, t: string)
    ensures Contains(s, t) <==> exists j :: OccursAt(s, t, j)
  {
  }

  /** `s.replace(pat, rep)` with a string pattern: only the first occurrence
      is replaced (the replacement holds no `$` patterns here). */
  function ReplaceFirst(s: string, pat: string, rep: string): string {
    match IndexOf(s, pat)
    case None => s
    case Some(k) => s[..k] + rep + s[k + |pat|..]
  }

  // ---------------------------------------------------------------------------
  // ASCII case folding (the `i` flag of a non-unicode regular expression)
  // ---------------------------------------------------------------------------

  /** Canonical case of a character under a non-unicode `/i` regular
      expression, restricted to what matters for ASCII patterns: lower-case
      ASCII letters fold to upper case, and no other character folds into
      the ASCII range. */
  function UpperAscii(c: char): char {
    if 'a' <= c <= 'z' then (c as int - 32) as char else c
  }

  function FoldCase(s: string): (r: string)
    ensures |r| == |s|
    ensures forall i :: 0 <= i < |s| ==> r[i] == UpperAscii(s[i])
  {
    seq(|s|, i requires 0 <= i < |s| => UpperAscii(s[i]))
  }

  /** `t` matches somewhere in `s`, letters compared case-insensitively. */
  predicate ContainsIgnoreCase(s: string, t: string) {
    Contains(FoldCase(s), FoldCase(t))
  }

  /** `t` matches at the end of `s`, letters compared case-insensitively. */
  predicate EndsWithIgnoreCase(s: string, t: string) {
    EndsWith(FoldCase(s), FoldCase(t))
  }

  // ---------------------------------------------------------------------------
  // split / join
  // ---------------------------------------------------------------------------

  /** Number of occurrences of `c` in `s`. */
  function Count(s: string, c: char): nat {
    if |s| == 0 then 0 else (if s[0] == c then 1 else 0) + Count(s[1..], c)
  }

  /** `s.split(sep)` for a one-character separator: no trimming, empty
      pieces kept, and `"".split(sep)` is `[""]`. */
  function Split(s: string, sep: char): (r: seq<string>)
    ensures |r| > 0
  {
    if |s| == 0 then [""]
    else
      var rest := Split(s[1..], sep);
      if s[0] == sep then [""] + rest
      else [[s[0]] + rest[0]] + rest[1..]
  }

  /** `parts.join(sep)` */
  function Join(parts: seq<string>, sep: char): string {
    if |parts| == 0 then ""
    else if |parts| == 1 then parts[0]
    else parts[0] + [sep] + Join(parts[1..], sep)
  }

  lemma {:induction false} JoinSplit(s: string, sep: char)
    ensures Join(Split(s, sep), sep) == s
  {
    if |s| == 0 {
    } else {
      var rest := Split(s[1..], sep);
      JoinSplit(s[1..], sep);
      if s[0] == sep {
        assert Split(s, sep) == [""] + rest;
        assert ([""] + rest)[1..] == rest;
        assert s == [sep] + s[1..];
      } else {
        var r := [[s[0]] + rest[0]] + rest[1..];
        assert Split(s, sep) == r;
        if |rest| == 1 {
          assert Join(rest, sep) == rest[0];
          assert s == [s[0]] + s[1..];
        } else {
          assert r[1..] == rest[1..];
          assert Join(rest, sep) == rest[0] + [sep] + Join(rest[1..], sep);
          assert s == [s[0]] + s[1..];
        }
      }
    }
  }

  lemma {:induction false} SplitCount(s: string, sep: char)
    ensures |Split(s, sep)| == Count(s, sep) + 1
  {
    if |s| > 0 {
      SplitCount(s[1..], sep);
    }
  }

  lemma {:induction false} SplitPiecesHaveNoSeparator(s: string, sep: char)
    ensures forall i :: 0 <= i < |Split(s, sep)| ==> sep !in Split(s, sep)[i]
  {
    if |s| > 0 {
      SplitPiecesHaveNoSeparator(s[1..], sep);
      var rest := Split(s[1..], sep);
      if s[0] != sep {
        var r := [[s[0]] + rest[0]] + rest[1..];
        assert Split(s, sep) == r;
        forall i | 0 <= i < |r| ensures sep !in r[i] {
          if i > 0 { assert r[i] == rest[i]; }
        }
      }
    }
  }

  lemma {:induction false} SplitJoin(parts: seq<string>, sep: char)
    requires |parts| > 0
    requires forall i :: 0 <= i < |parts| ==> sep !in parts[i]
    ensures Split(Join(parts, sep), sep) == parts
  {
    if |parts| == 1 {
      SplitFree(parts[0], sep);
    } else {
      SplitJoin(parts[1..], sep);
      SplitPrefix(parts[0], sep, Join(parts[1..], sep));
      assert [parts[0]] + parts[1..] == parts;
    }
  }

  /** A separator-free string splits into itself. */
  lemma {:induction false} SplitFree(s: string, sep: char)
    requires sep !in s
    ensures Split(s, sep) == [s]
  {
    if |s| > 0 {
      SplitFree(s[1..], sep);
      assert [s[0]] + s[1..] == s;
    }
  }

  /** Splitting `w + [sep] + rest` for a separator-free `w`. */
  lemma {:induction false} SplitPrefix(w: string, sep: char, rest: string)
    requires sep !in w
    ensures Split(w + [sep] + rest, sep) == [w] + Split(rest, sep)
  {
    var s := w + [sep] + rest;
    if |w| == 0 {
      assert s == [sep] + rest;
      assert s[1..] == rest;
    } else {
      assert s[1..] == w[1..] + [sep] + rest;
      SplitPrefix(w[1..], sep, rest);
      var tail := Split(s[1..], sep);
      assert tail == [w[1..]] + Split(rest, sep);
      assert [w[0]] + w[1..] == w;
    }
  }

  /** How the pieces of `s` relate to those of `s[1..]`. */
  lemma SplitStep(s: string, sep: char)
    requires |s| > 0
    ensures var rest := Split(s[1..], sep);
      var r := Split(s, sep);
      && (s[0] == sep ==> |r| == |rest| + 1 && r[|r| - 1] == rest[|rest| - 1])
      && (s[0] != sep && |rest| > 1 ==> |r| == |rest| && r[|r| - 1] == rest[|rest| - 1])
      && (s[0] != sep && |rest| == 1 ==> r == [s])
  {
    var rest := Split(s[1..], sep);
    if s[0] != sep && |rest| == 1 {
      JoinSplit(s[1..], sep);
      assert [s[0]] + s[1..] == s;
    }
  }

  /** The last piece of a split (what `split(sep).pop()` returns) is the
      separator-free suffix of `s` that follows its last separator. */
  lemma {:induction false} SplitLast(s: string, sep: char)
    ensures var l := Split(s, sep)[|Split(s, sep)| - 1];
      && EndsWith(s, l)
      && sep !in l
      && (|l| == |s| || s[|s| - |l| - 1] == sep)
      && (|Split(s, sep)| > 1 ==> |l| < |s|)
  {
    var r := Split(s, sep);
    var l := r[|r| - 1];
    SplitPiecesHaveNoSeparator(s, sep);
    assert sep !in l;
    if |s| > 0 {
      var t := s[1..];
      SplitLast(t, sep);
      SplitStep(s, sep);
      var rest := Split(t, sep);
      if s[0] == sep || |rest| > 1 {
        assert l == rest[|rest| - 1];
        assert |l| <= |t|;
        assert s[|s| - |l|..] == t[|t| - |l|..];
        if |l| < |t| {
          assert s[|s| - |l| - 1] == t[|t| - |l| - 1];
        }
      }
    }
  }

  // ---------------------------------------------------------------------------
  // parseInt(s, 10) and number-to-string
  // ---------------------------------------------------------------------------

  predicate IsDigit(c: char) {
    '0' <= c <= '9'
  }

  /** The characters `parseInt` strips before the number: ECMAScript
      WhiteSpace (tab, vertical tab, form feed, space, no-break space, byte
      order mark and the Zs category) and LineTerminator. */
  predicate IsJsSpace(c: char) {
    c as int in {0x09, 0x0A, 0x0B, 0x0C, 0x0D, 0x20, 0xA0, 0x1680,
                 0x2000, 0x2001, 0x2002, 0x2003, 0x2004, 0x2005, 0x2006,
                 0x2007, 0x2008, 0x2009, 0x200A, 0x2028, 0x2029, 0x202F,
                 0x205F, 0x3000, 0xFEFF}
  }

  function TrimStart(s: string): (r: string)
    ensures EndsWith(s, r)
    ensures |r| > 0 ==> !IsJsSpace(r[0])
    ensures forall i :: 0 <= i < |s| - |r| ==> IsJsSpace(s[i])
  {
    if |s| > 0 && IsJsSpace(s[0]) then
      var r := TrimStart(s[1..]);
      assert s[|s| - |r|..] == s[1..][|s[1..]| - |r|..];
      r
    else s
  }

  /** The longest prefix of `s` made of decimal digits. */
  function LeadingDigits(s: string): (r: string)
    ensures StartsWith(s, r)
    ensures forall i :: 0 <= i < |r| ==> IsDigit(r[i])
    ensures |r| < |s| ==> !IsDigit(s[|r|])
  {
    if |s| > 0 && IsDigit(s[0]) then
      var r := LeadingDigits(s[1..]);
      assert s[..|r| + 1] == [s[0]] + s[1..][..|r|];
      [s[0]] + r
    else ""
  }

  function DigitValue(c: char): nat
    requires IsDigit(c)
  {
    c as int - '0' as int
  }

  /** The value of a string of decimal digits, most significant first. */
  function DigitsValue(ds: string): nat
    requires forall i :: 0 <= i < |ds| ==> IsDigit(ds[i])
  {
    if |ds| == 0 then 0
    else 10 * DigitsValue(ds[..|ds| - 1]) + DigitValue(ds[|ds| - 1])
  }

  /** `parseInt(s, 10)`, with `None` for `NaN`: leading white space, then an
      optional sign, then the longest run of decimal digits; anything after
      the digits is ignored. (The digit string's value is exact here: the
      rounding of values beyond 2^53 to a double is not modelled.) */
  function ParseInt(s: string): (r: Option<int>)
    ensures r.None? <==> LeadingDigits(UnsignedPart(TrimStart(s))) == ""
  {
    ParseSigned(TrimStart(s))
  }

  /** `parseInt` after the white space: sign, then digits. */
  function ParseSigned(t: string): (r: Option<int>)
    ensures r.None? <==> LeadingDigits(UnsignedPart(t)) == ""
  {
    var ds := LeadingDigits(UnsignedPart(t));
    if |ds| == 0 then None
    else if |t| > 0 && t[0] == '-' then Some(0 - DigitsValue(ds) as int)
    else Some(DigitsValue(ds))
  }

  /** What follows an optional leading sign. */
  function UnsignedPart(t: string): string {
    if |t| > 0 && (t[0] == '-' || t[0] == '+') then t[1..] else t
  }

  function DigitChar(d: nat): (c: char)
    requires d < 10
    ensures IsDigit(c) && DigitValue(c) == d
  {
    (d + '0' as int) as char
  }

  /** Decimal rendering of a natural number, without leading zeros. */
  function NatToString(n: nat): (r: string)
    ensures |r| > 0
    ensures forall i :: 0 <= i < |r| ==> IsDigit(r[i])
  {
    if n < 10 then [DigitChar(n)]
    else NatToString(n / 10) + [DigitChar(n % 10)]
  }

  /** `${n}` for an integral number. */
  function IntToString(n: int): string {
    if n < 0 then "-" + NatToString(-n) else NatToString(n)
  }

  lemma {:induction false} NatToStringValue(n: nat)
    ensures DigitsValue(NatToString(n)) == n
  {
    if n >= 10 {
      NatToStringValue(n / 10);
      var r := NatToString(n);
      assert r[..|r| - 1] == NatToString(n / 10);
    }
  }

  lemma {:induction false} LeadingDigitsOfDigits(s: string)
    requires forall i :: 0 <= i < |s| ==> IsDigit(s[i])
    ensures LeadingDigits(s) == s
  {
    if |s| > 0 {
      LeadingDigitsOfDigits(s[1..]);
      assert [s[0]] + s[1..] == s;
    }
  }

  predicate AllDigits(ds: string) {
    forall i :: 0 <= i < |ds| ==> IsDigit(ds[i])
  }

  lemma TrimStartKeeps(s: string)
    requires |s| > 0 && !IsJsSpace(s[0])
    ensures TrimStart(s) == s
  {
  }

  /** A non-empty digit string parses to its value. */
  lemma {:induction false} ParseUnsigned(ds: string)
    requires |ds| > 0 && AllDigits(ds)
    ensures ParseInt(ds) == Some(DigitsValue(ds) as int)
  {
    LeadingDigitsOfDigits(ds);
    assert !IsJsSpace(ds[0]) && ds[0] != '-' && ds[0] != '+';
    TrimStartKeeps(ds);
    assert UnsignedPart(ds) == ds;
  }

  lemma ParseSignedMinus(s: string, ds: string)
    requires |ds| > 0 && AllDigits(ds)
    requires |s| > 0 && s[0] == '-' && UnsignedPart(s) == ds && LeadingDigits(ds) == ds
    ensures ParseSigned(s) == Some(0 - DigitsValue(ds) as int)
  {
  }

  lemma {:induction false} TrimStartSpaces(ws: string, t: string)
    requires forall i :: 0 <= i < |ws| ==> IsJsSpace(ws[i])
    requires |t| == 0 || !IsJsSpace(t[0])
    ensures TrimStart(ws + t) == t
  {
    if |ws| == 0 {
      assert ws + t == t;
    } else {
      assert (ws + t)[1..] == ws[1..] + t;
      TrimStartSpaces(ws[1..], t);
    }
  }

  lemma {:induction false} LeadingDigitsStop(ds: string, rest: string)
    requires AllDigits(ds)
    requires |rest| == 0 || !IsDigit(rest[0])
    ensures LeadingDigits(ds + rest) == ds
  {
    if |ds| == 0 {
      assert ds + rest == rest;
    } else {
      assert (ds + rest)[1..] == ds[1..] + rest;
      LeadingDigitsStop(ds[1..], rest);
      assert [ds[0]] + ds[1..] == ds;
    }
  }

  /** `parseInt(s, 10)` on every input that has a number: white space, an
      optional sign, a maximal run of digits, then anything that does not
      start with a digit. */
  lemma {:induction false} ParseIntReadsNumber(ws: string, sign: string, ds: string, rest: string)
    requires forall i :: 0 <= i < |ws| ==> IsJsSpace(ws[i])
    requires sign == "" || sign == "+" || sign == "-"
    requires |ds| > 0 && AllDigits(ds)
    requires |rest| == 0 || !IsDigit(rest[0])
    ensures ParseInt(ws + sign + ds + rest)
      == Some(if sign == "-" then 0 - DigitsValue(ds) as int else DigitsValue(ds) as int)
  {
    var t := sign + ds + rest;
    assert ws + sign + ds + rest == ws + t;
    assert t[0] == if sign == "" then ds[0] else sign[0];
    TrimStartSpaces(ws, t);
    ParseSignedNumber(sign, ds, rest);
  }

  lemma {:induction false} ParseSignedNumber(sign: string, ds: string, rest: string)
    requires sign == "" || sign == "+" || sign == "-"
    requires |ds| > 0 && AllDigits(ds)
    requires |rest| == 0 || !IsDigit(rest[0])
    ensures ParseSigned(sign + ds + rest)
      == Some(if sign == "-" then 0 - DigitsValue(ds) as int else DigitsValue(ds) as int)
  {
    var t := sign + ds + rest;
    if sign == "" {
      assert t == ds + rest;
    } else {
      assert t[1..] == ds + rest;
    }
    assert UnsignedPart(t) == ds + rest;
    LeadingDigitsStop(ds, rest);
  }

  /** `parseInt(s, 10)` is `NaN` on every input with no digit after the
      white space and the optional sign. */
  lemma {:induction false} ParseIntNaN(ws: string, sign: string, rest: string)
    requires forall i :: 0 <= i < |ws| ==> IsJsSpace(ws[i])
    requires sign == "" || sign == "+" || sign == "-"
    requires |rest| == 0 || !IsDigit(rest[0])
    requires sign == "" && |rest| > 0 ==> !IsJsSpace(rest[0]) && rest[0] != '+' && rest[0] != '-'
    ensures ParseInt(ws + sign + rest) == None
  {
    var t := sign + rest;
    assert ws + sign + rest == ws + t;
    TrimStartSpaces(ws, t);
    assert UnsignedPart(t) == rest;
  }

  /** A minus sign before a non-empty digit string negates its value. */
  lemma {:induction false} ParseNegative(ds: string)
    requires |ds| > 0 && AllDigits(ds)
    ensures ParseInt("-" + ds) == Some(0 - DigitsValue(ds) as int)
  {
    var s := "-" + ds;
    LeadingDigitsOfDigits(ds);
    assert s[1..] == ds;
    TrimStartKeeps(s);
    ParseSignedMinus(s, ds);
  }

  /** `parseInt` reads back exactly the number that `${n}` printed. */
  lemma ParseIntOfIntToString(n: int)
    ensures ParseInt(IntToString(n)) == Some(n)
  {
    var m: nat := if n < 0 then -n else n;
    NatToStringValue(m);
    if n < 0 {
      ParseNegative(NatToString(m));
    } else {
      ParseUnsigned(NatToString(m));
    }
  }
}

=== FILE: wrappers.dfy ===
/** Optional values, standing in for JavaScript's `null`/`undefined`. */
module Wrappers {

  datatype Option<+T> = None | Some(value: T) {

    /** The wrapped value, or `default` when there is none (JavaScript `??`). */
    function GetOr(default: T): T {
      match this
      case Some(v) => v
      case None => default
    }
  }
}
